=== FILE: README.md ===
# Distributed object storage gateway — a Dafny model

This project models the core of a small distributed object store written in Go.

An HTTP gateway accepts `PUT /object/:id` and `GET /object/:id`. It validates the object ID and hands the object to a sharding router, `DistributedStorage`. At start-up the router does three things:
- It discovers the MinIO storage nodes among the running Docker containers.
- It builds and initialises one MinIO adapter per node.
- It places the nodes on a consistent-hash ring.

Each object ID is then routed to exactly one node.

The model is functional. The Docker daemon's answers and the MinIO servers are data:
- a listing of containers, each with its inspection result;
- a cluster mapping each endpoint to a server, which maps bucket names to buckets of stored objects.

Failures the program cannot foresee (timeouts, credentials, transport) are given per call as optional causes. The consistent-hash lookup is a function parameter. Where a property needs it, the lookup is assumed to return a member of a non-empty ring.

Modules:
- `Text` — the string helpers the Go code relies on: `strings.Contains`, `strings.Split`, `strings.Repeat`.
- `StorageTypes` — `Object`, `Node`, the error values, `Node.String` (`Token`), `Node.Debug` and `maskSecret`.
- `MockStore` — the map-backed store double used by the handler tests. It is the reference behaviour of the store contract.
- `Minio` — the MinIO adapter (`Init`, `Get`, `Put`, the missing-key handling) over an abstract cluster, with its refinement of `MockStore`.
- `Discovery` — the container filter and environment parsing of `getAvailableStorageNodes`.
- `Router` — `DistributedStorage`: `Init`, `initStorages`, `initStorageNode`, `initHashCircle`, `Put`, `Get`.
- `Gateway` — `validateObjectID` and the decision logic of the `getObject` and `putObject` handlers.
- `Serving` — the handlers wired to a store, with end-to-end round trips.

## Model

| member | source | states |
|---|---|---|
| Text.ByteLength | internal/storage/storage.go:244 | Go's `len`: the UTF-8 byte length, never below the character count and equal to it exactly for ASCII strings |
| Text.Contains | internal/storage/storage.go:196 | `strings.Contains`: true exactly when the pattern occurs at some position of the string |
| Text.Repeat | internal/storage/storage.go:243-245 | `strings.Repeat`: the result has the requested length and every character is the repeated one |
| Text.Split | internal/storage/storage.go:226 | `strings.Split`: at least one part, no part holds the separator, and more than one part exactly when the separator occurs |
| Text.JoinSplit | internal/storage/storage.go:226 | joining the parts of a split with the separator gives back the original string, so the split loses nothing |
| Text.SplitAtFirst | internal/storage/storage.go:226-228 | the first part of a split is everything before the first separator, and the rest is the split of what follows it |
| StorageTypes.TokenLayout | internal/storage/storage.go:44-46 | `Node.String` is the ID, a '#', then the name, each at its own position |
| StorageTypes.TokenInjective | internal/storage/storage.go:44-46 | when IDs hold no '#', two nodes with the same token have the same ID and name, so registry keys and ring members identify nodes |
| StorageTypes.MaskSecret | internal/storage/storage.go:243-245 | `maskSecret` has one 'X' per byte of the secret's UTF-8 encoding and nothing else |
| StorageTypes.Debug | internal/storage/storage.go:48-50 | `Node.Debug` starts with the node's token and ends with the masked secret |
| StorageTypes.DebugHidesSecret | internal/storage/storage.go:48-50 | two nodes differing only in secrets of equal byte length have the same Debug form, so the secret is never printed |
| StorageTypes.MaskCountsBytes | internal/storage/storage.go:243-245 | the mask counts bytes: "é" masks to "XX", an ASCII secret to one 'X' per character |
| StorageTypes.MaskNeverShowsSecret | internal/storage/storage.go:243-245 | the mask differs from any secret that is not all 'X' |
| MockStore.Get | internal/gateway/httpd_test.go:26-31 | a configured error fails the read; otherwise the stored object is returned, or nothing when the ID is absent |
| MockStore.Put | internal/gateway/httpd_test.go:33-39 | a configured error fails and changes nothing; otherwise the object is stored under its ID and every other entry is kept |
| MockStore.PutThenGet | internal/gateway/httpd_test.go:26-39 | reading back an object just written returns it, and every other ID reads as before |
| Minio.KeyDoesNotExist | internal/storage/minio.go:122-124 | true exactly when the error message contains "The specified key does not exist." |
| Minio.HandleKeyDoesNotExistError | internal/storage/minio.go:115-120 | a missing-key error becomes an empty result with no error; any other error names the prefix, endpoint and ID; an object is never returned |
| Minio.Init | internal/storage/minio.go:62-77 | success exactly when the existence check answers and the bucket exists or can be created; success leaves the bucket ready, and a bucket it created is empty; failure changes nothing and names the endpoint; every existing bucket keeps its contents |
| Minio.InitIdempotent | internal/storage/minio.go:62-77 | running Init again after a success changes nothing and succeeds |
| Minio.Get | internal/storage/minio.go:79-103 | a returned object is what is stored under the requested ID, with its content type and bytes; errors name the endpoint and ID; an empty result comes only from a missing-key error of a client call or from a ready bucket without the ID; with no failures on a ready bucket the result is empty exactly when the ID is absent |
| Minio.StatMissingKey | internal/storage/minio.go:86-88 | a failed stat reads as a missing key only when its injected error says so, or when the bucket exists and lacks the ID |
| Minio.ServerMessagesAreNotMissingKey | internal/storage/minio.go:122-124 | the errors for a missing bucket and an unreachable server do not contain the missing-key marker |
| Minio.GetUnreadyIsError | internal/storage/minio.go:86-88 | without failures, a Get against a server that is down or lacks the bucket is an error, never an empty result |
| Minio.Put | internal/storage/minio.go:105-113 | success exactly when no failure occurs and the bucket exists; the entry under the ID is replaced and nothing else on any server changes; failure changes nothing and names the endpoint and ID |
| Minio.Contents | internal/storage/minio.go:79-103 | the bucket viewed as the store contract's map: the same IDs, each object carrying its own ID |
| Minio.GetRefinesMock | internal/storage/minio.go:79-103 | without failures, reading a ready bucket is reading the map double over its contents |
| Minio.PutRefinesMock | internal/storage/minio.go:105-113 | without failures, writing a ready bucket succeeds and changes its contents as the map double's Put does |
| Minio.InitPutGet | itests/minio_test.go:33-52 | Init, Put, then Get of the same ID returns the same ID, content type and bytes, and other IDs read as before |
| Discovery.ParseEnvKeys | internal/storage/storage.go:224-230 | a key is in the parsed environment exactly when some entry splits on '=' into two or more parts with that key first |
| Discovery.ParseEnvLastWins | internal/storage/storage.go:224-230 | a key's value is the second part of the last entry that binds it |
| Discovery.FirstAddress | internal/storage/storage.go:203-211 | the first non-empty network address, and empty exactly when every address is empty |
| Discovery.DiscoverFrom | internal/storage/storage.go:184-240 | succeeds exactly when every candidate container resolves; every node comes from a resolvable candidate and each such candidate's node is present; an error is the rejection of the first candidate that does not resolve |
| Discovery.DiscoverFromCons | internal/storage/storage.go:185-238 | one step of the scan: the first container is skipped, rejected, or has its node put in front of the rest's nodes; a failure of the rest is passed on |
| Discovery.DiscoverFromSingle | internal/storage/storage.go:186-236 | a single container gives no node when it is not a candidate, the rejection when it has no address, and exactly its own node otherwise |
| Discovery.DiscoverFromAppend | internal/storage/storage.go:185-238 | the scan of a + b is the scan of a followed by that of b: a's failure first, then b's, else a's nodes then b's nodes, in order and once each |
| Discovery.Discover | internal/storage/storage.go:173-181 | a failed listing is the listing error; otherwise the listed containers are filtered |
| Discovery.DiscoveredNodeShape | internal/storage/storage.go:185-216 | every discovered node has an ID, a name containing "amazin-object-storage-node-", and an endpoint that is a non-empty address followed by ":9000" |
| Discovery.NodeCredentials | internal/storage/storage.go:224-233 | a node's access and secret keys are the values of the last entries binding MINIO_ACCESS_KEY and MINIO_SECRET_KEY, and empty when none binds them |
| Router.InitStorageNode | internal/storage/storage.go:102-117 | success yields the adapter built from the node's configuration with its bucket ready; a failure names the node in its Debug form and changes nothing; an unreachable or failing node always fails, and a fault-free reachable one always succeeds |
| Router.InitStorages | internal/storage/storage.go:88-99 | on success the registry keys are exactly the nodes' tokens and every entry is a ready adapter for the bucket |
| Router.InitStoragesBlames | internal/storage/storage.go:91-95 | a failure of initStorages is exactly the error of the first node whose initialisation failed, on the cluster the nodes before it left, and it names that node in its Debug form |
| Router.InitStoragesFailsAt | internal/storage/storage.go:91-95 | conversely, when every node before some node succeeded and that node's initialisation fails, initStorages fails with that node's error |
| Router.InitStoragesFailsHere | internal/storage/storage.go:91-95 | the nodes up to and including the first failing one fail with that node's error |
| Router.InitStoragesErrorPersists | internal/storage/storage.go:91-95 | once a prefix of the nodes fails, initStorages over all of them returns the prefix's error; the loop stops there |
| Router.InitStoragesStopsAtFailure | internal/storage/storage.go:92-95 | if the nodes before the last failed, their error is returned and the last node is not tried |
| Router.InitStoragesLastFails | internal/storage/storage.go:92-95 | if only the last node fails, its error is returned |
| Router.InitStoragesFailsOnDoomed | internal/storage/storage.go:91-95 | one node whose client cannot be created, whose bucket check fails or whose endpoint does not answer makes initStorages fail |
| Router.InitStoragesSucceeds | internal/storage/storage.go:88-99 | fault-free nodes whose endpoints all answer are all initialised |
| Router.InitStoragesAllOrNothing | internal/storage/storage.go:88-99 | both of the above for one call: any doomed node means failure, and all healthy nodes mean success |
| Router.InitStoragesKeepsBuckets | internal/storage/storage.go:88-99 | initStorages removes no bucket from any server, and every existing bucket keeps its contents |
| Router.InitStorageNodeKeepsBuckets | internal/storage/storage.go:102-117 | initialising one node only probes for or creates its bucket: every existing bucket keeps its contents |
| Router.InitStoragesKeepsEndpoints | internal/storage/storage.go:88-99 | initStorages brings up no server and takes none away |
| Router.InitStoragesStep | internal/storage/storage.go:91-97 | in a successful run, the nodes before the last succeeded and the last node's adapter is stored under its token |
| Router.InitStoragesPrefixOk | internal/storage/storage.go:91-95 | a successful initStorages succeeded on the nodes before the last, since any earlier failure is returned |
| Router.RegistryLastWins | internal/storage/storage.go:91-97 | nodes sharing a token collapse to the adapter of the last of them |
| Router.RegistryKeepsEarlier | internal/storage/storage.go:96 | storing the last node under a different token leaves an earlier node's entry as it was |
| Router.InitHashCircle | internal/storage/storage.go:120-130 | the ring's members are exactly the nodes' tokens, and non-empty when there is a node |
| Router.Init | internal/storage/storage.go:72-85 | all or nothing: a discovery error is returned wrapped, or unwrapped when an address is missing; after discovery, a router comes out exactly when initStorages succeeds over the discovered nodes, and then its registry and the resulting cluster are those initStorages built, and its ring covers exactly their tokens with ready adapters; a failure is the first failing node's own error and names that node; every existing bucket keeps its contents |
| Router.NeverMisses | internal/storage/storage.go:137-144 | with a lookup that lands on a ring member, a well-formed router always finds the routed node in its registry |
| Router.Put | internal/storage/storage.go:132-151 | an absent object or empty ID is refused before routing; a registry miss is an error and changes nothing; otherwise the object goes only to the routed adapter and its error comes back wrapped with the member token; well-formedness is kept |
| Router.Get | internal/storage/storage.go:153-170 | a registry miss is an error; otherwise the routed adapter's answer comes back unchanged, including an empty result, and its error comes back wrapped with the member token |
| Router.RoundTrip | internal/storage/storage.go:132-170 | after a successful Put, a Get of the same ID without failures returns the object |
| Router.PutLeavesOthers | internal/storage/storage.go:132-170 | a successful Put leaves every other ID reading as before |
| Gateway.MatchesAlnumPlus | internal/gateway/httpd.go:14 | `^[a-zA-Z0-9]+$` matches exactly the non-empty strings of ASCII letters and digits |
| Gateway.ValidateObjectId | internal/gateway/httpd.go:35-40 | the length check counts bytes as Go's `len` does; an ID is valid exactly when it has 1 to 32 characters, all ASCII letters or digits |
| Gateway.SampleIds | internal/gateway/httpd_test.go:49-64 | the test IDs behave as the tests expect: "invalid@ID" is refused and "validID" accepted |
| Gateway.GetDecision | internal/gateway/httpd.go:44-48 | the store is consulted exactly for a valid ID; an invalid one is answered 400 with the fixed message |
| Gateway.GetReply | internal/gateway/httpd.go:50-60 | a store error is 500, an empty result is 404, an object is 200 with its content type and bytes |
| Gateway.GetObject | internal/gateway/httpd.go:42-61 | the store is called exactly for a valid ID; an invalid ID is 400 with the fixed message; a store error is 500, a missing object 404, each with its message and the ID; a found object is 200 with its content type and bytes as stored |
| Gateway.PutDecide | internal/gateway/httpd.go:63-84 | the store is called exactly when the ID is valid and the body could be read, with the path ID, the Content-Type header and the body bytes; otherwise 400 with the matching message |
| Gateway.PutReply | internal/gateway/httpd.go:85-91 | a store error is 500, success is 200 with the stored-ID message |
| Gateway.PutObject | internal/gateway/httpd.go:63-92 | the store receives exactly (path ID, Content-Type, body) for a valid ID and a readable body; an invalid ID and an unreadable body are 400 with their own messages; a store error is 500 and success 200, each with its message and the ID |
| Serving.ServeGetOnMock | internal/gateway/httpd.go:42-61 | getObject over the map double: the response is the handler's decision on the double's answer, 200 exactly for a valid ID that the double holds with no configured error |
| Serving.ServePutOnMock | internal/gateway/httpd.go:63-92 | putObject over the map double: an invalid ID or unreadable body is 400 with the double untouched; otherwise the double's Put decides the new state and the response |
| Serving.MockPutThenGet | internal/gateway/httpd.go:42-92 | over the map double, a PUT of a valid ID is answered 200, and a GET of that ID then answers 200 with the same content type and bytes |
| Serving.MockInvalidIdUntouched | internal/gateway/httpd.go:46-48 | an invalid ID is answered 400 by both handlers and leaves the store unchanged |
| Serving.ServeGetOnRouter | internal/gateway/httpd.go:42-61 | getObject over the router: an invalid ID is 400 without reaching the router, which then needs no ring; a valid one gets the handler's decision on the router's answer |
| Serving.ServePutOnRouter | internal/gateway/httpd.go:63-92 | putObject over the router: an invalid ID or unreadable body is 400 with the cluster unchanged and no ring needed; otherwise the router's Put decides the new cluster and the response |
| Serving.RouterPutThenGet | internal/gateway/httpd.go:42-92 | through the router, a PUT answered 200 is followed by a GET answering 200 with the same content type and bytes |
| Serving.RouterStoresValidPut | internal/storage/storage.go:132-151 | with a sound lookup and no failures, a well-formed router answers every valid PUT 200 |
| Serving.RouterMissingIsNotFound | internal/gateway/httpd.go:56-58 | with a sound lookup and no failures, a GET of an ID the routed node does not hold is answered 404, not 500 |
| Serving.RouterUnreadyIs500 | internal/gateway/httpd.go:51-55 | a GET of a valid ID routed to a node whose server is down or lacks the bucket is answered 500 with the retrieval message, not 404 |

## Left out

- Docker and MinIO client I/O. Listing, inspecting, bucket checks, object reads and writes are data in the model (a container listing, a cluster of servers) plus per-call optional failures. Contexts, timeouts and the HTTP transport settings of `NewMinioStorage` are not modelled.
- The consistent-hash ring internals: xxhash, the partition table, the 1.25 load factor and `LocateKey` itself. The lookup is a parameter; the model records only the ring's members and its partition count.
- Router.Put: on an empty ring the Go code dereferences a nil member and panics. The model requires a non-empty ring whenever an object with an ID reaches the router.
- Router.Get: requires a non-empty ring for the same reason.
- Router.Init: when a node fails, the Go code keeps a partly filled `availableStorages` map but no ring, so the value is unusable. The model returns no router at all.
- `log.Fatalf` on a candidate without an IP address ends the process. The model returns the error `AddressUnresolved`, which Init passes on unwrapped.
- Go map iteration order over a container's networks is unspecified. The model takes the networks as a given sequence.
- The MinIO client library defaults an empty Content-Type to `application/octet-stream` and checks object names itself. That library code is not part of this model.
- Text.ByteLength: Dafny strings hold Unicode scalar values, so a Go string holding invalid UTF-8 bytes cannot be expressed. Byte lengths are those of the valid UTF-8 encoding.
- Formatted error-message text. Errors are structured values that carry the same parts: prefix, endpoint, ID, node and cause.
- Logging, concurrency, the Echo router and middleware, JSON encoding, and `cmd/main.go` wiring.

=== FILE: discovery.dfy ===
/** Node discovery, the filtering part of getAvailableStorageNodes in
    internal/storage/storage.go. The Docker daemon's answers are data: the
    listing of running containers (or its failure) and, per container, the
    result of inspecting it. */
module Discovery {
  import opened StorageTypes
  import Text

  const ContainerNamePattern := "amazin-object-storage-node-"
  const MinioAccessKeyEnv := "MINIO_ACCESS_KEY"
  const MinioSecretKeyEnv := "MINIO_SECRET_KEY"
  /** MinioApiPort (9000) as "%s:%d" appends it to the address. */
  const MinioApiPortSuffix := ":9000"

  /** The daemon's answer to inspecting one container: its environment entries. */
  datatype Inspection = Inspected(env: seq<string>) | InspectFailed(cause: Cause)

  /** One running container. `networks` is None when the container has no
      network settings; otherwise it lists the IP address of each of its
      networks in the order they are visited. */
  datatype Container = Container(id: string, names: seq<string>, networks: Option<seq<string>>, inspection: Inspection)

  datatype Listing = Listed(containers: seq<Container>) | ListFailed(cause: Cause)

  // ---- environment entries ----

  /** The entry splits on '=' into at least two parts, the first being `key`. */
  predicate Binds(entry: string, key: string) {
    var parts := Text.Split(entry, '=');
    |parts| > 1 && parts[0] == key
  }

  /** The environment as a map: every entry with an '=' binds its first part
      to its second part, later entries overriding earlier ones. */
  function ParseEnv(env: seq<string>): map<string, string>
    decreases |env|
  {
    if |env| == 0 then map[]
    else
      var parts := Text.Split(env[|env| - 1], '=');
      var m := ParseEnv(env[..|env| - 1]);
      if |parts| > 1 then m[parts[0] := parts[1]] else m
  }

  /** A key is in the parsed environment exactly when some entry binds it. */
  lemma {:induction false} ParseEnvKeys(env: seq<string>, key: string)
    ensures key in ParseEnv(env) <==> exists i :: 0 <= i < |env| && Binds(env[i], key)
    decreases |env|
  {
    if |env| > 0 {
      var init := env[..|env| - 1];
      ParseEnvKeys(init, key);
      assert forall i :: 0 <= i < |init| ==> init[i] == env[i];
      if exists i :: 0 <= i < |env| && Binds(env[i], key) {
        var i :| 0 <= i < |env| && Binds(env[i], key);
        if i < |init| {
          assert Binds(init[i], key);
        }
      }
    }
  }

  /** The value of a key is the second '='-separated part of the last entry
      that binds it. */
  lemma {:induction false} ParseEnvLastWins(env: seq<string>, key: string, j: nat)
    requires j < |env| && Binds(env[j], key)
    requires forall i :: j < i < |env| ==> !Binds(env[i], key)
    ensures key in ParseEnv(env) && ParseEnv(env)[key] == Text.Split(env[j], '=')[1]
    decreases |env|
  {
    if j < |env| - 1 {
      var init := env[..|env| - 1];
      assert init[j] == env[j];
      forall i | j < i < |init|
        ensures !Binds(init[i], key)
      {
        assert init[i] == env[i];
      }
      ParseEnvLastWins(init, key, j);
      assert !Binds(env[|env| - 1], key);
    }
  }

  /** A Go map read: the missing key reads as the empty string. */
  function EnvLookup(m: map<string, string>, key: string): string
  {
    if key in m then m[key] else ""
  }

  // ---- containers ----

  function FirstName(c: Container): string
  {
    if |c.names| > 0 then c.names[0] else ""
  }

  /** Worth considering as a storage node: it has an ID, network settings and
      a first name containing the storage-node pattern. */
  predicate IsCandidate(c: Container) {
    c.id != "" && c.networks.Some? && Text.Contains(FirstName(c), ContainerNamePattern)
  }

  /** The first non-empty address, or the empty string when there is none. */
  function FirstAddress(ips: seq<string>): (a: string)
    ensures a == "" <==> forall i :: 0 <= i < |ips| ==> ips[i] == ""
    ensures a != "" ==> exists i :: 0 <= i < |ips| && ips[i] == a && forall j :: 0 <= j < i ==> ips[j] == ""
    decreases |ips|
  {
    if |ips| == 0 then ""
    else if ips[0] != "" then ips[0]
    else
      var a := FirstAddress(ips[1..]);
      assert forall i :: 0 < i < |ips| ==> ips[i] == ips[1..][i - 1];
      a
  }

  function Address(c: Container): string
  {
    if c.networks.Some? then FirstAddress(c.networks.value) else ""
  }

  /** Discovery can turn the container into a node: it has an address and
      the daemon could inspect it. */
  predicate Resolvable(c: Container) {
    Address(c) != "" && c.inspection.Inspected?
  }

  /** The node built from a resolvable container; the credentials come from
      its environment. */
  function NodeOf(c: Container): Node
    requires Resolvable(c)
  {
    var env := ParseEnv(c.inspection.env);
    Node(c.id, FirstName(c), Address(c) + MinioApiPortSuffix,
         EnvLookup(env, MinioAccessKeyEnv), EnvLookup(env, MinioSecretKeyEnv))
  }

  /** Why a candidate could not be resolved: no address (the process exits),
      or the inspection failed. */
  function Rejection(c: Container): Error
    requires !Resolvable(c)
  {
    if Address(c) == "" then AddressUnresolved(c.id, FirstName(c))
    else InspectContainer(c.id, c.inspection.cause)
  }

  /** The loop over the listed containers. It succeeds exactly when every
      candidate resolves, and then yields one node per candidate and nothing
      else; otherwise it stops at the first candidate that does not resolve. */
  function DiscoverFrom(cs: seq<Container>): (r: Result<seq<Node>>)
    ensures r.Ok? <==> forall i :: 0 <= i < |cs| && IsCandidate(cs[i]) ==> Resolvable(cs[i])
    ensures r.Ok? ==> forall n :: n in r.value ==> FromCandidate(cs, n)
    ensures r.Ok? ==> forall i :: 0 <= i < |cs| && IsCandidate(cs[i]) && Resolvable(cs[i]) ==> NodeOf(cs[i]) in r.value
    ensures r.Err? ==>
              exists i :: && 0 <= i < |cs| && IsCandidate(cs[i]) && !Resolvable(cs[i]) && r.error == Rejection(cs[i])
                          && (forall j :: 0 <= j < i && IsCandidate(cs[j]) ==> Resolvable(cs[j]))
    decreases |cs|
  {
    if |cs| == 0 then Ok([])
    else
      var c := cs[0];
      var rest := DiscoverFrom(cs[1..]);
      assert forall i :: 0 < i < |cs| ==> cs[i] == cs[1..][i - 1];
      FromCandidateTail(cs);
      if !IsCandidate(c) then
        rest
      else if !Resolvable(c) then
        Err(Rejection(c))
      else if rest.Err? then
        Err(rest.error)
      else
        assert FromCandidate(cs, NodeOf(c));
        Ok([NodeOf(c)] + rest.value)
  }

  /** `n` is the node built from some resolvable candidate among `cs`. */
  ghost predicate FromCandidate(cs: seq<Container>, n: Node) {
    exists i :: 0 <= i < |cs| && IsCandidate(cs[i]) && Resolvable(cs[i]) && NodeOf(cs[i]) == n
  }

  lemma FromCandidateTail(cs: seq<Container>)
    requires |cs| > 0
    ensures forall n :: FromCandidate(cs[1..], n) ==> FromCandidate(cs, n)
  {
    forall n | FromCandidate(cs[1..], n)
      ensures FromCandidate(cs, n)
    {
      var i :| 0 <= i < |cs[1..]| && IsCandidate(cs[1..][i]) && Resolvable(cs[1..][i]) && NodeOf(cs[1..][i]) == n;
      assert cs[1..][i] == cs[i + 1];
    }
  }

  /** One container: skipped when it is not a candidate, the rejection when
      it has no address, otherwise exactly its node. */
  lemma DiscoverFromSingle(c: Container)
    ensures DiscoverFrom([c]) == if !IsCandidate(c) then Ok([])
                                 else if !Resolvable(c) then Err(Rejection(c))
                                 else Ok([NodeOf(c)])
  {
    DiscoverFromCons([c]);
    assert [c][1..] == [];
    if IsCandidate(c) && Resolvable(c) {
      assert [NodeOf(c)] + [] == [NodeOf(c)];
    }
  }

  /** What the scan makes of container `c` in front of a rest that scanned
      to `rest`: skip it, reject it, pass on the rest's failure, or put its
      node first. */
  ghost function ScanOne(c: Container, rest: Result<seq<Node>>): Result<seq<Node>>
  {
    if !IsCandidate(c) then rest
    else if !Resolvable(c) then Err(Rejection(c))
    else if rest.Err? then rest
    else Ok([NodeOf(c)] + rest.value)
  }

  /** How the scans of two listings combine: the first one's failure, else
      the second one's, else the nodes of both in order. */
  ghost function ScanThen(ra: Result<seq<Node>>, rb: Result<seq<Node>>): Result<seq<Node>>
  {
    if ra.Err? then ra else if rb.Err? then rb else Ok(ra.value + rb.value)
  }

  /** One step of the scan: the first container decides, or passes the
      decision to the rest. */
  lemma DiscoverFromCons(cs: seq<Container>)
    requires |cs| > 0
    ensures DiscoverFrom(cs) == ScanOne(cs[0], DiscoverFrom(cs[1..]))
  {
  }

  /** Putting a container in front commutes with scanning a second listing
      after the first. */
  lemma ScanOneThen(c: Container, ra: Result<seq<Node>>, rb: Result<seq<Node>>)
    ensures ScanOne(c, ScanThen(ra, rb)) == ScanThen(ScanOne(c, ra), rb)
  {
    if IsCandidate(c) && Resolvable(c) && ra.Ok? && rb.Ok? {
      assert [NodeOf(c)] + (ra.value + rb.value) == ([NodeOf(c)] + ra.value) + rb.value;
    }
  }

  /** Dropping the head of a concatenation drops the head of its first part. */
  lemma TailOfAppend<T>(a: seq<T>, b: seq<T>)
    requires |a| > 0
    ensures (a + b)[0] == a[0] && (a + b)[1..] == a[1..] + b
  {
  }

  /** The listing is scanned front to back: the containers of `a` come first,
      in their order and once each, then those of `b`; the first rejection
      met ends the scan. With DiscoverFromSingle this fixes the order and
      number of the discovered nodes. */
  lemma {:induction false} DiscoverFromAppend(a: seq<Container>, b: seq<Container>)
    ensures DiscoverFrom(a + b) == ScanThen(DiscoverFrom(a), DiscoverFrom(b))
    decreases |a|
  {
    if |a| == 0 {
      assert a + b == b;
      if DiscoverFrom(b).Ok? {
        assert DiscoverFrom(a).value + DiscoverFrom(b).value == DiscoverFrom(b).value;
      }
    } else {
      DiscoverFromAppend(a[1..], b);
      DiscoverFromAppendStep(a, b);
    }
  }

  /** The induction step of DiscoverFromAppend: a law for the tail carries
      over to the whole of `a`. */
  lemma DiscoverFromAppendStep(a: seq<Container>, b: seq<Container>)
    requires |a| > 0
    requires DiscoverFrom(a[1..] + b) == ScanThen(DiscoverFrom(a[1..]), DiscoverFrom(b))
    ensures DiscoverFrom(a + b) == ScanThen(DiscoverFrom(a), DiscoverFrom(b))
  {
    assert DiscoverFrom(a + b) == ScanOne(a[0], DiscoverFrom(a[1..] + b)) by {
      TailOfAppend(a, b);
      DiscoverFromCons(a + b);
    }
    assert DiscoverFrom(a) == ScanOne(a[0], DiscoverFrom(a[1..])) by {
      DiscoverFromCons(a);
    }
    ScanOneThen(a[0], DiscoverFrom(a[1..]), DiscoverFrom(b));
  }

  /** getAvailableStorageNodes without the daemon: a failed listing is an
      error, otherwise the listed containers are filtered. */
  function Discover(l: Listing): (r: Result<seq<Node>>)
    ensures l.ListFailed? ==> r == Err(ListContainers(l.cause))
    ensures l.Listed? ==> r == DiscoverFrom(l.containers)
  {
    match l
    case ListFailed(e) => Err(ListContainers(e))
    case Listed(cs) => DiscoverFrom(cs)
  }

  /** Every discovered node has an ID, a name with the storage-node pattern,
      and an endpoint made of a non-empty address and the MinIO API port. */
  lemma DiscoveredNodeShape(l: Listing, n: Node)
    requires Discover(l).Ok? && n in Discover(l).value
    ensures n.id != "" && Text.Contains(n.name, ContainerNamePattern)
    ensures exists addr :: addr != "" && n.endpoint == addr + MinioApiPortSuffix
  {
    var i :| 0 <= i < |l.containers| && IsCandidate(l.containers[i]) && Resolvable(l.containers[i]) && NodeOf(l.containers[i]) == n;
    assert n.endpoint == Address(l.containers[i]) + MinioApiPortSuffix;
  }

  /** A node's access key is the value of the last environment entry binding
      MINIO_ACCESS_KEY, and the empty string when no entry binds it; the
      secret key likewise for MINIO_SECRET_KEY. */
  lemma NodeCredentials(c: Container, key: string)
    requires Resolvable(c)
    requires key == MinioAccessKeyEnv || key == MinioSecretKeyEnv
    ensures var env := c.inspection.env;
            var value := if key == MinioAccessKeyEnv then NodeOf(c).accessKey else NodeOf(c).secretKey;
            && ((forall i :: 0 <= i < |env| ==> !Binds(env[i], key)) ==> value == "")
            && (forall j :: 0 <= j < |env| && Binds(env[j], key) && (forall i :: j < i < |env| ==> !Binds(env[i], key)) ==>
                  value == Text.Split(env[j], '=')[1])
  {
    var env := c.inspection.env;
    ParseEnvKeys(env, key);
    forall j | 0 <= j < |env| && Binds(env[j], key) && (forall i :: j < i < |env| ==> !Binds(env[i], key))
      ensures EnvLookup(ParseEnv(env), key) == Text.Split(env[j], '=')[1]
    {
      ParseEnvLastWins(env, key, j);
    }
  }
}

=== FILE: gateway.dfy ===
/** The decision logic of the HTTP gateway, internal/gateway/httpd.go:
    object-ID validation and the outcome-to-status mapping of the GET and PUT
    handlers. Each handler is split at the store call: a decision taken
    before it (reject, or call the store with these arguments) and a reply
    built from the store's answer. */
module Gateway {
  import opened StorageTypes
  import Text

  const MaxObjectIdLength := 32

  const StatusOK := 200
  const StatusBadRequest := 400
  const StatusNotFound := 404
  const StatusInternalServerError := 500

  const InvalidObjectIdMessage := "Invalid objectID. Must be alfa-numeric string between 1 and 32 characters."
  const UnreadableBodyMessage := "Cannot read request body"
  const RetrieveErrorPrefix := "Error retrieving object: "
  const NotFoundPrefix := "Object doesn't exist: "
  const StoreErrorPrefix := "Cannot store object: "
  const StoredPrefix := "Object was successfully stored with ID: "

  /** The response body: a JSON message, or the object's bytes with its content type. */
  datatype Payload = Json(message: string) | Blob(contentType: string, content: seq<byte>)

  datatype Response = Response(status: int, payload: Payload)

  /** The regular expression ^[a-zA-Z0-9]+$. */
  function MatchesAlnumPlus(s: string): (b: bool)
    ensures b <==> |s| > 0 && forall i :: 0 <= i < |s| ==> Text.IsAlnum(s[i])
    decreases |s|
  {
    if |s| == 0 || !Text.IsAlnum(s[0]) then false
    else if |s| == 1 then true
    else
      assert forall i :: 0 < i < |s| ==> s[i] == s[1..][i - 1];
      MatchesAlnumPlus(s[1..])
  }

  /** validateObjectID: between 1 and 32 bytes, all ASCII letters or digits;
      since those are one byte each, between 1 and 32 characters. */
  function ValidateObjectId(id: string): (ok: bool)
    ensures ok <==> 1 <= |id| <= MaxObjectIdLength && forall i :: 0 <= i < |id| ==> Text.IsAlnum(id[i])
  {
    var n := Text.ByteLength(id);
    if n == 0 || n > MaxObjectIdLength then false
    else
      assert MatchesAlnumPlus(id) ==> n == |id|;
      MatchesAlnumPlus(id)
  }

  /** The IDs the handler tests use: "invalid@ID" is refused and "validID"
      accepted. */
  lemma SampleIds()
    ensures !ValidateObjectId("invalid@ID")
    ensures ValidateObjectId("validID")
  {
    assert !Text.IsAlnum("invalid@ID"[7]);
    var v := "validID";
    forall i | 0 <= i < |v|
      ensures Text.IsAlnum(v[i])
    {
    }
  }

  // ---- getObject ----

  /** Before the store: an invalid ID is answered at once, without a store call. */
  function GetDecision(id: string): (r: Option<Response>)
    ensures r.None? <==> ValidateObjectId(id)
    ensures r.Some? ==> r.value == Response(StatusBadRequest, Json(InvalidObjectIdMessage))
  {
    if !ValidateObjectId(id) then Some(Response(StatusBadRequest, Json(InvalidObjectIdMessage)))
    else None
  }

  /** After the store: an error is 500, an empty result 404, an object 200
      with its content type and bytes as they are. */
  function GetReply(id: string, answer: Result<Option<Object>>): (r: Response)
    ensures r.status == StatusOK <==> answer.Ok? && answer.value.Some?
    ensures r.status == StatusOK ==> r.payload == Blob(answer.value.value.contentType, answer.value.value.content)
    ensures answer.Err? ==> r == Response(StatusInternalServerError, Json(RetrieveErrorPrefix + id))
    ensures answer == Ok(None) ==> r == Response(StatusNotFound, Json(NotFoundPrefix + id))
  {
    match answer
    case Err(_) => Response(StatusInternalServerError, Json(RetrieveErrorPrefix + id))
    case Ok(None) => Response(StatusNotFound, Json(NotFoundPrefix + id))
    case Ok(Some(o)) => Response(StatusOK, Blob(o.contentType, o.content))
  }

  /** The handler's decision as a whole. */
  datatype GetExchange = GetExchange(response: Response, storeCalled: bool)

  /** getObject, given what the store would answer for this ID. */
  function GetObject(id: string, answer: Result<Option<Object>>): (x: GetExchange)
    ensures x.storeCalled <==> ValidateObjectId(id)
    ensures !x.storeCalled ==> x.response.status == StatusBadRequest
    ensures x.response.status == StatusOK <==> ValidateObjectId(id) && answer.Ok? && answer.value.Some?
    ensures x.response.status in {StatusOK, StatusBadRequest, StatusNotFound, StatusInternalServerError}
    ensures !ValidateObjectId(id) ==> x.response == Response(StatusBadRequest, Json(InvalidObjectIdMessage))
    ensures ValidateObjectId(id) && answer.Err? ==> x.response == Response(StatusInternalServerError, Json(RetrieveErrorPrefix + id))
    ensures ValidateObjectId(id) && answer == Ok(None) ==> x.response == Response(StatusNotFound, Json(NotFoundPrefix + id))
    ensures ValidateObjectId(id) && answer.Ok? && answer.value.Some? ==>
              x.response == Response(StatusOK, Blob(answer.value.value.contentType, answer.value.value.content))
  {
    match GetDecision(id)
    case Some(resp) => GetExchange(resp, false)
    case None => GetExchange(GetReply(id, answer), true)
  }

  // ---- putObject ----

  /** What reading the request body gave. */
  datatype BodyRead = BodyBytes(bytes: seq<byte>) | BodyFailed(cause: Cause)

  datatype PutDecision = Reject(response: Response) | Store(obj: Object)

  /** Before the store: an invalid ID is 400, an unreadable body is 400;
      otherwise the store gets the path ID, the Content-Type header and the
      body bytes. */
  function PutDecide(id: string, contentType: string, body: BodyRead): (d: PutDecision)
    ensures d.Store? <==> ValidateObjectId(id) && body.BodyBytes?
    ensures d.Store? ==> d.obj == Object(id, contentType, body.bytes)
    ensures !ValidateObjectId(id) ==> d == Reject(Response(StatusBadRequest, Json(InvalidObjectIdMessage)))
    ensures ValidateObjectId(id) && body.BodyFailed? ==> d == Reject(Response(StatusBadRequest, Json(UnreadableBodyMessage)))
  {
    if !ValidateObjectId(id) then Reject(Response(StatusBadRequest, Json(InvalidObjectIdMessage)))
    else match body
      case BodyFailed(_) => Reject(Response(StatusBadRequest, Json(UnreadableBodyMessage)))
      case BodyBytes(bytes) => Store(Object(id, contentType, bytes))
  }

  /** After the store: an error is 500, success 200. */
  function PutReply(id: string, outcome: Outcome): (r: Response)
    ensures r.status == StatusOK <==> outcome.Pass?
    ensures outcome.Pass? ==> r.payload == Json(StoredPrefix + id)
    ensures outcome.Fail? ==> r == Response(StatusInternalServerError, Json(StoreErrorPrefix + id))
  {
    if outcome.Fail? then Response(StatusInternalServerError, Json(StoreErrorPrefix + id))
    else Response(StatusOK, Json(StoredPrefix + id))
  }

  /** The handler's decision as a whole: the response, and the object handed
      to the store (None when the store was not called). */
  datatype PutExchange = PutExchange(response: Response, stored: Option<Object>)

  /** putObject, given the store's outcome should it be called. */
  function PutObject(id: string, contentType: string, body: BodyRead, outcome: Outcome): (x: PutExchange)
    ensures x.stored.Some? <==> ValidateObjectId(id) && body.BodyBytes?
    ensures x.stored.Some? ==> x.stored.value == Object(id, contentType, body.bytes)
    ensures x.response.status == StatusOK <==> x.stored.Some? && outcome.Pass?
    ensures x.stored.None? ==> x.response.status == StatusBadRequest
    ensures x.response.status in {StatusOK, StatusBadRequest, StatusInternalServerError}
    ensures !ValidateObjectId(id) ==> x.response == Response(StatusBadRequest, Json(InvalidObjectIdMessage))
    ensures ValidateObjectId(id) && body.BodyFailed? ==> x.response == Response(StatusBadRequest, Json(UnreadableBodyMessage))
    ensures x.stored.Some? && outcome.Fail? ==> x.response == Response(StatusInternalServerError, Json(StoreErrorPrefix + id))
    ensures x.stored.Some? && outcome.Pass? ==> x.response == Response(StatusOK, Json(StoredPrefix + id))
  {
    match PutDecide(id, contentType, body)
    case Reject(resp) => PutExchange(resp, None)
    case Store(o) => PutExchange(PutReply(id, outcome), Some(o))
  }
}

=== FILE: minio.dfy ===
/** The MinIO-backed adapter of internal/storage/minio.go.

    The MinIO servers are data: a cluster maps each endpoint ("host:port") to
    a server, a server maps bucket names to buckets, a bucket maps object
    names to what was stored. An endpoint absent from the cluster has no
    server answering. Every client call may also fail for reasons the model
    does not see (timeouts, credentials, transport); such failures are given
    per call as an optional Cause. */
module Minio {
  import opened StorageTypes
  import Text
  import MockStore

  /** The marker keyDoesNotExist looks for in a client error message. */
  const KeyNotExistMessage := "The specified key does not exist."
  const BucketNotExistMessage := "The specified bucket does not exist"
  const BucketOwnedMessage := "Your previous request to create the named bucket succeeded and you already own it."
  const ConnectionRefusedMessage := "connection refused"

  datatype Stored = Stored(contentType: string, content: seq<byte>)
  datatype Server = Server(buckets: map<string, map<string, Stored>>)
  type Cluster = map<string, Server>

  /** The adapter for one node: the client configuration it was built from. */
  datatype MinioStorage = MinioStorage(endpoint: string, accessKey: string, secretKey: string, bucketName: string)

  /** What one client call returned. */
  datatype Reply<T> = Answer(value: T) | Failed(cause: Cause)

  /** Unseen failures of the two calls Init makes. */
  datatype InitFaults = InitFaults(probe: Option<Cause>, make: Option<Cause>)
  /** Unseen failures of the three steps of Get: open, stat, read the body. */
  datatype GetFaults = GetFaults(open: Option<Cause>, stat: Option<Cause>, read: Option<Cause>)

  const NoInitFaults := InitFaults(None, None)
  const NoGetFaults := GetFaults(None, None, None)

  predicate HasBucket(c: Cluster, endpoint: string, bucket: string) {
    endpoint in c && bucket in c[endpoint].buckets
  }

  /** The adapter's bucket exists on its server. */
  predicate BucketReady(c: Cluster, s: MinioStorage) {
    HasBucket(c, s.endpoint, s.bucketName)
  }

  function Bucket(c: Cluster, s: MinioStorage): map<string, Stored>
    requires BucketReady(c, s)
  {
    c[s.endpoint].buckets[s.bucketName]
  }

  /** No bucket disappears between `c` and `c'`. */
  ghost predicate BucketsKept(c: Cluster, c': Cluster) {
    forall ep, b :: HasBucket(c, ep, b) ==> HasBucket(c', ep, b)
  }

  /** Every bucket of `c` is still in `c'` with the same contents. */
  ghost predicate BucketsUntouched(c: Cluster, c': Cluster) {
    forall ep, b :: HasBucket(c, ep, b) ==> HasBucket(c', ep, b) && c'[ep].buckets[b] == c[ep].buckets[b]
  }

  /** Between `c` and `c'` nothing changed but bucket `bucket` at `endpoint`. */
  ghost predicate OnlyBucketChanged(c: Cluster, c': Cluster, endpoint: string, bucket: string) {
    && c'.Keys == c.Keys
    && (forall ep | ep in c && ep != endpoint :: c'[ep] == c[ep])
    && (endpoint in c ==>
          forall b | b in c[endpoint].buckets && b != bucket ::
            b in c'[endpoint].buckets && c'[endpoint].buckets[b] == c[endpoint].buckets[b])
  }

  // ---- client calls ----

  function BucketExists(c: Cluster, s: MinioStorage, fault: Option<Cause>): Reply<bool>
  {
    if fault.Some? then Failed(fault.value)
    else if s.endpoint !in c then Failed(Cause(ConnectionRefusedMessage))
    else Answer(s.bucketName in c[s.endpoint].buckets)
  }

  function MakeBucket(c: Cluster, s: MinioStorage, fault: Option<Cause>): Reply<Cluster>
  {
    if fault.Some? then Failed(fault.value)
    else if s.endpoint !in c then Failed(Cause(ConnectionRefusedMessage))
    else if s.bucketName in c[s.endpoint].buckets then Failed(Cause(BucketOwnedMessage))
    else Answer(c[s.endpoint := Server(c[s.endpoint].buckets[s.bucketName := map[]])])
  }

  function StatObject(c: Cluster, s: MinioStorage, id: string, fault: Option<Cause>): Reply<Stored>
  {
    if fault.Some? then Failed(fault.value)
    else if s.endpoint !in c then Failed(Cause(ConnectionRefusedMessage))
    else if s.bucketName !in c[s.endpoint].buckets then Failed(Cause(BucketNotExistMessage))
    else if id !in c[s.endpoint].buckets[s.bucketName] then Failed(Cause(KeyNotExistMessage))
    else Answer(c[s.endpoint].buckets[s.bucketName][id])
  }

  function PutObject(c: Cluster, s: MinioStorage, o: Object, fault: Option<Cause>): Reply<Cluster>
  {
    if fault.Some? then Failed(fault.value)
    else if s.endpoint !in c then Failed(Cause(ConnectionRefusedMessage))
    else if s.bucketName !in c[s.endpoint].buckets then Failed(Cause(BucketNotExistMessage))
    else
      var buckets := c[s.endpoint].buckets;
      var bucket := buckets[s.bucketName][o.id := Stored(o.contentType, o.content)];
      Answer(c[s.endpoint := Server(buckets[s.bucketName := bucket])])
  }

  // ---- the adapter ----

  /** keyDoesNotExist: the error message mentions the missing-key marker. */
  function KeyDoesNotExist(e: Cause): (b: bool)
    ensures b <==> exists i :: Text.OccursAt(e.message, KeyNotExistMessage, i)
  {
    Text.Contains(e.message, KeyNotExistMessage)
  }

  /** handleKeyDoesNotExistError: a missing key is an empty result with no
      error; anything else is an error that names the endpoint and the ID.
      It never yields an object. */
  function HandleKeyDoesNotExistError(s: MinioStorage, e: Cause, prefix: string, id: string): (r: Result<Option<Object>>)
    ensures r == Ok(None) <==> KeyDoesNotExist(e)
    ensures r.Err? <==> !KeyDoesNotExist(e)
    ensures r.Err? ==> r.error == GetObjectFailed(prefix, s.endpoint, id, e)
  {
    if KeyDoesNotExist(e) then Ok(None)
    else Err(GetObjectFailed(prefix, s.endpoint, id, e))
  }

  /** MinioStorage.Init: make sure the bucket exists, creating it only when
      the existence check says it is missing. */
  function Init(s: MinioStorage, c: Cluster, f: InitFaults): (r: (Cluster, Outcome))
    ensures r.1.Pass? <==> f.probe.None? && s.endpoint in c && (s.bucketName in c[s.endpoint].buckets || f.make.None?)
    ensures r.1.Pass? ==> BucketReady(r.0, s)
    ensures r.1.Fail? ==> r.0 == c
    ensures r.1.Fail? ==> (r.1.error.CheckBucket? || r.1.error.CreateBucket?) && r.1.error.endpoint == s.endpoint
    ensures BucketReady(c, s) && f.probe.None? ==> r == (c, Pass)
    ensures BucketsKept(c, r.0)
    ensures OnlyBucketChanged(c, r.0, s.endpoint, s.bucketName)
    ensures BucketReady(c, s) ==> BucketReady(r.0, s) && Bucket(r.0, s) == Bucket(c, s)
    ensures r.1.Pass? && !BucketReady(c, s) ==> Bucket(r.0, s) == map[]
    ensures BucketsUntouched(c, r.0)
  {
    match BucketExists(c, s, f.probe)
    case Failed(e) => (c, Fail(CheckBucket(s.endpoint, e)))
    case Answer(true) => (c, Pass)
    case Answer(false) =>
      match MakeBucket(c, s, f.make)
      case Failed(e) => (c, Fail(CreateBucket(s.endpoint, e)))
      case Answer(c') => (c', Pass)
  }

  /** Running Init again after it succeeded changes nothing and succeeds. */
  lemma InitIdempotent(s: MinioStorage, c: Cluster)
    requires Init(s, c, NoInitFaults).1.Pass?
    ensures var c1 := Init(s, c, NoInitFaults).0; Init(s, c1, NoInitFaults) == (c1, Pass)
  {
  }

  /** The errors a server gives for a missing bucket or an unreachable
      endpoint do not carry the missing-key marker. */
  lemma ServerMessagesAreNotMissingKey()
    ensures !KeyDoesNotExist(Cause(BucketNotExistMessage))
    ensures !KeyDoesNotExist(Cause(ConnectionRefusedMessage))
  {
    var m := KeyNotExistMessage;
    var b := BucketNotExistMessage;
    forall i
      ensures !Text.OccursAt(b, m, i)
    {
      if 0 <= i && i + |m| <= |b| {
        assert |b| == 35 && |m| == 33;
        assert m[0] == 'T' && m[14] == 'k';
        assert b[1] == 'h' && b[2] == 'e' && b[14] == 'b';
        var k := if i == 0 then 14 else 0;
        assert b[i..i + |m|][k] != m[k];
      }
    }
  }

  /** A stat failure reads as a missing key only when the injected failure
      says so, or when the bucket is there and the object is not. */
  lemma StatMissingKey(c: Cluster, s: MinioStorage, id: string, fault: Option<Cause>)
    requires StatObject(c, s, id, fault).Failed?
    ensures KeyDoesNotExist(StatObject(c, s, id, fault).cause) ==>
              (fault.Some? && KeyDoesNotExist(fault.value)) || (fault.None? && BucketReady(c, s) && id !in Bucket(c, s))
  {
    ServerMessagesAreNotMissingKey();
  }

  /** MinioStorage.Get. A successful read is the stored entry under the
      requested ID; a missing key is an empty result with no error. */
  function Get(s: MinioStorage, c: Cluster, id: string, f: GetFaults): (r: Result<Option<Object>>)
    ensures r.Ok? && r.value.Some? ==>
              && f.open.None? && f.stat.None? && f.read.None? && BucketReady(c, s) && id in Bucket(c, s)
              && r.value.value == Object(id, Bucket(c, s)[id].contentType, Bucket(c, s)[id].content)
    ensures r.Err? ==> (r.error.GetObjectFailed? || r.error.ReadBody?) && r.error.endpoint == s.endpoint && r.error.id == id
    ensures f == NoGetFaults && BucketReady(c, s) ==> r.Ok? && (r.value.Some? <==> id in Bucket(c, s))
    ensures r == Ok(None) ==>
              || (f.open.Some? && KeyDoesNotExist(f.open.value))
              || (f.open.None? && f.stat.Some? && KeyDoesNotExist(f.stat.value))
              || (f.open.None? && f.stat.None? && BucketReady(c, s) && id !in Bucket(c, s))
  {
    if f.open.Some? then HandleKeyDoesNotExistError(s, f.open.value, "error get object", id)
    else match StatObject(c, s, id, f.stat)
      case Failed(e) =>
        StatMissingKey(c, s, id, f.stat);
        HandleKeyDoesNotExistError(s, e, "error get object: unable to read stat", id)
      case Answer(info) =>
        if f.read.Some? then Err(ReadBody(s.endpoint, id, f.read.value))
        else Ok(Some(Object(id, info.contentType, info.content)))
  }

  /** A server that does not answer, or that lacks the adapter's bucket, is
      a failure of Get and never reads as a missing object. */
  lemma GetUnreadyIsError(s: MinioStorage, c: Cluster, id: string)
    requires !BucketReady(c, s)
    ensures Get(s, c, id, NoGetFaults).Err?
  {
    StatMissingKey(c, s, id, None);
  }

  /** MinioStorage.Put: write content and content type under the object's ID,
      replacing what was there; on failure nothing changes. */
  function Put(s: MinioStorage, c: Cluster, o: Object, fault: Option<Cause>): (r: (Cluster, Outcome))
    ensures r.1.Pass? <==> fault.None? && BucketReady(c, s)
    ensures r.1.Fail? ==> r.0 == c && r.1.error.PutObjectFailed? && r.1.error.endpoint == s.endpoint && r.1.error.id == o.id
    ensures r.1.Pass? ==> BucketReady(r.0, s) && Bucket(r.0, s) == Bucket(c, s)[o.id := Stored(o.contentType, o.content)]
    ensures BucketsKept(c, r.0)
    ensures OnlyBucketChanged(c, r.0, s.endpoint, s.bucketName)
  {
    match PutObject(c, s, o, fault)
    case Failed(e) => (c, Fail(PutObjectFailed(s.endpoint, o.id, e)))
    case Answer(c') => (c', Pass)
  }

  // ---- the map-backed double is the reference ----

  /** The objects the adapter's bucket holds, as the store contract sees them. */
  function Contents(c: Cluster, s: MinioStorage): (m: map<string, Object>)
    requires BucketReady(c, s)
    ensures m.Keys == Bucket(c, s).Keys
    ensures forall id | id in m :: m[id].id == id
  {
    map id | id in Bucket(c, s) :: Object(id, Bucket(c, s)[id].contentType, Bucket(c, s)[id].content)
  }

  function AsMock(c: Cluster, s: MinioStorage): MockStore.MockStorage
    requires BucketReady(c, s)
  {
    MockStore.MockStorage(Contents(c, s), None)
  }

  /** Without failures, reading from a ready bucket is reading the map double. */
  lemma GetRefinesMock(s: MinioStorage, c: Cluster, id: string)
    requires BucketReady(c, s)
    ensures Get(s, c, id, NoGetFaults) == MockStore.Get(AsMock(c, s), id)
  {
  }

  /** Without failures, writing to a ready bucket succeeds and acts on its
      contents as the map double's Put does. */
  lemma PutRefinesMock(s: MinioStorage, c: Cluster, o: Object)
    requires BucketReady(c, s)
    ensures Put(s, c, o, None).1 == Pass
    ensures BucketReady(Put(s, c, o, None).0, s)
    ensures AsMock(Put(s, c, o, None).0, s) == MockStore.Put(AsMock(c, s), o).0
  {
    var c' := Put(s, c, o, None).0;
    var m := MockStore.Put(AsMock(c, s), o).0;
    assert Contents(c', s) == m.objects;
  }

  /** The integration scenario: Init, Put, then Get of the same ID gives back
      the same ID, content type and bytes; other IDs read as before. */
  lemma InitPutGet(s: MinioStorage, c: Cluster, o: Object, other: string)
    requires s.endpoint in c
    ensures var (c1, init) := Init(s, c, NoInitFaults);
            var (c2, put) := Put(s, c1, o, None);
            && init == Pass && put == Pass
            && Get(s, c2, o.id, NoGetFaults) == Ok(Some(o))
            && (other != o.id ==> Get(s, c2, other, NoGetFaults) == Get(s, c1, other, NoGetFaults))
  {
    var c1 := Init(s, c, NoInitFaults).0;
    PutRefinesMock(s, c1, o);
    var c2 := Put(s, c1, o, None).0;
    GetRefinesMock(s, c2, o.id);
    GetRefinesMock(s, c2, other);
    GetRefinesMock(s, c1, other);
    MockStore.PutThenGet(AsMock(c1, s), o, other);
  }
}

=== FILE: mock_store.dfy ===
/** The map-backed store double of internal/gateway/httpd_test.go: the
    reference behaviour of the store contract. Put overwrites the entry under
    the object's ID; Get returns that entry, or nothing when there is none;
    a configured error makes both calls fail with it and change nothing. */
module MockStore {
  import opened StorageTypes

  datatype MockStorage = MockStorage(objects: map<string, Object>, err: Option<Cause>)

  function Get(ms: MockStorage, id: string): (r: Result<Option<Object>>)
    ensures ms.err.Some? <==> r.Err?
    ensures r.Err? ==> r.error == Plain(ms.err.value)
    ensures r.Ok? ==> (r.value.Some? <==> id in ms.objects)
    ensures r.Ok? && r.value.Some? ==> r.value.value == ms.objects[id]
  {
    if ms.err.Some? then Err(Plain(ms.err.value))
    else if id in ms.objects then Ok(Some(ms.objects[id]))
    else Ok(None)
  }

  function Put(ms: MockStorage, o: Object): (r: (MockStorage, Outcome))
    ensures ms.err.Some? <==> r.1.Fail?
    ensures r.1.Fail? ==> r.0 == ms
    ensures r.1.Pass? ==> r.0.err == ms.err && r.0.objects.Keys == ms.objects.Keys + {o.id}
    ensures r.1.Pass? ==> r.0.objects[o.id] == o
    ensures r.1.Pass? ==> forall id :: id in ms.objects && id != o.id ==> r.0.objects[id] == ms.objects[id]
  {
    if ms.err.Some? then (ms, Fail(Plain(ms.err.value)))
    else (ms.(objects := ms.objects[o.id := o]), Pass)
  }

  /** Reading back an object just written returns it, and leaves every other
      ID reading as before. */
  lemma PutThenGet(ms: MockStorage, o: Object, other: string)
    requires ms.err.None?
    ensures Get(Put(ms, o).0, o.id) == Ok(Some(o))
    ensures other != o.id ==> Get(Put(ms, o).0, other) == Get(ms, other)
  {
  }
}

=== FILE: router.dfy ===
/** The sharding router, DistributedStorage of internal/storage/storage.go.

    Init discovers the nodes, builds and initialises one MinIO adapter per
    node into a registry keyed by the node's token, then builds the hash ring
    over the same tokens. Put and Get locate the member token for an object ID
    on the ring, look the adapter up in the registry and forward to it alone.

    The consistent-hash lookup is not modelled: it is a parameter `locate`,
    a deterministic function of the ring and the key, and the only thing
    assumed of it (where a property needs it) is that on a non-empty ring it
    returns one of the ring's members. */
module Router {
  import opened StorageTypes
  import Minio
  import Discovery

  /** The ring initHashCircle builds: the member tokens and the partition
      count (one partition per discovered node). */
  datatype Ring = Ring(members: set<string>, partitionCount: nat)

  /** LocateKey(key).String(): the member token a key is placed on. */
  type Locator = (Ring, string) -> string

  /** A lookup that always lands on a member of a non-empty ring. */
  ghost predicate Sound(locate: Locator) {
    forall ring: Ring, key: string :: ring.members != {} ==> locate(ring, key) in ring.members
  }

  /** Member token to the adapter of that node. */
  type Registry = map<string, Minio.MinioStorage>

  datatype DistributedStorage = DistributedStorage(bucketName: string, ring: Ring, registry: Registry)

  /** Failures, unseen by the model, of creating a node's client and of the
      two calls its Init makes. */
  datatype NodeFaults = NodeFaults(create: Option<Cause>, init: Minio.InitFaults)

  const NoNodeFaults := NodeFaults(None, Minio.NoInitFaults)

  /** The tokens of a sequence of nodes. */
  function Tokens(nodes: seq<Node>): set<string>
  {
    set i | 0 <= i < |nodes| :: Token(nodes[i])
  }

  /** The adapter NewMinioStorage builds from a node's MinioConfig. */
  function AdapterFor(n: Node, bucket: string): Minio.MinioStorage
  {
    Minio.MinioStorage(n.endpoint, n.accessKey, n.secretKey, bucket)
  }

  /** The error names node `n`, in its Debug form. */
  predicate Blames(e: Error, n: Node) {
    (e.CreateStorage? || e.InitStorage?) && e.node == Debug(n)
  }

  /** A node whose initialisation fails whatever else happens: its client
      cannot be created, its bucket check fails, or no server answers at its
      endpoint. */
  predicate Doomed(n: Node, c: Minio.Cluster, f: NodeFaults) {
    f.create.Some? || f.init.probe.Some? || n.endpoint !in c
  }

  /** initStorageNode: build the node's adapter and initialise it; a failure
      is wrapped with the node's Debug form. */
  function InitStorageNode(n: Node, bucket: string, c: Minio.Cluster, f: NodeFaults): (r: (Minio.Cluster, Result<Minio.MinioStorage>))
    ensures r.1.Ok? ==> r.1.value == AdapterFor(n, bucket) && Minio.BucketReady(r.0, r.1.value)
    ensures r.1.Err? ==> Blames(r.1.error, n) && r.0 == c
    ensures Doomed(n, c, f) ==> r.1.Err?
    ensures f == NoNodeFaults && n.endpoint in c ==> r.1.Ok?
    ensures r.0.Keys == c.Keys
  {
    if f.create.Some? then
      (c, Err(CreateStorage(Debug(n), NewClient(f.create.value))))
    else
      var s := AdapterFor(n, bucket);
      var (c', out) := Minio.Init(s, c, f.init);
      if out.Fail? then (c', Err(InitStorage(Debug(n), out.error)))
      else (c', Ok(s))
  }

  /** initStorages: initialise the nodes in order, stopping at the first
      failure. On success the registry has one entry per distinct token, each
      an adapter for this bucket whose bucket is ready. */
  function InitStorages(nodes: seq<Node>, bucket: string, c: Minio.Cluster, faults: nat -> NodeFaults): (r: (Minio.Cluster, Result<Registry>))
    ensures r.1.Ok? ==> r.1.value.Keys == Tokens(nodes)
    ensures r.1.Ok? ==> forall t | t in r.1.value :: Minio.BucketReady(r.0, r.1.value[t]) && r.1.value[t].bucketName == bucket
    decreases |nodes|
  {
    if |nodes| == 0 then (c, Ok(map[]))
    else
      var init := nodes[..|nodes| - 1];
      var last := nodes[|nodes| - 1];
      var (c1, prior) := InitStorages(init, bucket, c, faults);
      if prior.Err? then (c1, prior)
      else
        var (c2, made) := InitStorageNode(last, bucket, c1, faults(|nodes| - 1));
        if made.Err? then (c2, Err(made.error))
        else
          assert forall i :: 0 <= i < |init| ==> init[i] == nodes[i];
          assert Tokens(nodes) == Tokens(init) + {Token(last)};
          (c2, Ok(prior.value[Token(last) := made.value]))
  }

  /** Node `i` is the one initStorages stops at with error `e`: every node
      before it was initialised, and its own initialisation, on the cluster
      those left behind, failed with `e`. */
  ghost predicate FailsAt(nodes: seq<Node>, bucket: string, c: Minio.Cluster, faults: nat -> NodeFaults, i: nat, e: Error) {
    && i < |nodes|
    && InitStorages(nodes[..i], bucket, c, faults).1.Ok?
    && InitStorageNode(nodes[i], bucket, InitStorages(nodes[..i], bucket, c, faults).0, faults(i)).1 == Err(e)
  }

  /** A failure of initStorages is the failure of the first node whose
      initialisation failed, returned as that node produced it, naming the
      node in its Debug form. */
  lemma {:induction false} InitStoragesBlames(nodes: seq<Node>, bucket: string, c: Minio.Cluster, faults: nat -> NodeFaults)
    requires InitStorages(nodes, bucket, c, faults).1.Err?
    ensures exists i: nat :: FailsAt(nodes, bucket, c, faults, i, InitStorages(nodes, bucket, c, faults).1.error)
                             && Blames(InitStorages(nodes, bucket, c, faults).1.error, nodes[i])
    decreases |nodes|
  {
    var k := |nodes| - 1;
    var init := nodes[..k];
    var r := InitStorages(nodes, bucket, c, faults);
    var prior := InitStorages(init, bucket, c, faults).1;
    if prior.Err? {
      InitStoragesStopsAtFailure(nodes, bucket, c, faults);
      InitStoragesBlames(init, bucket, c, faults);
      var i: nat :| FailsAt(init, bucket, c, faults, i, prior.error) && Blames(prior.error, init[i]);
      assert init[..i] == nodes[..i];
      assert init[i] == nodes[i];
      assert FailsAt(nodes, bucket, c, faults, i, r.1.error);
    } else {
      assert nodes[..k] == init;
      var made := InitStorageNode(nodes[k], bucket, InitStorages(init, bucket, c, faults).0, faults(k)).1;
      assert made == Err(r.1.error);
      assert FailsAt(nodes, bucket, c, faults, k, r.1.error);
    }
  }

  /** Conversely, a node whose initialisation fails at its turn makes
      initStorages fail with that node's error. */
  lemma InitStoragesFailsAt(nodes: seq<Node>, bucket: string, c: Minio.Cluster, faults: nat -> NodeFaults, i: nat, e: Error)
    requires FailsAt(nodes, bucket, c, faults, i, e)
    ensures InitStorages(nodes, bucket, c, faults).1 == Err(e)
  {
    InitStoragesFailsHere(nodes, bucket, c, faults, i, e);
    InitStoragesErrorPersists(nodes, bucket, c, faults, i + 1);
  }

  /** The nodes up to and including the one that fails fail with its error. */
  lemma InitStoragesFailsHere(nodes: seq<Node>, bucket: string, c: Minio.Cluster, faults: nat -> NodeFaults, i: nat, e: Error)
    requires FailsAt(nodes, bucket, c, faults, i, e)
    ensures InitStorages(nodes[..i + 1], bucket, c, faults).1 == Err(e)
  {
    var upto := nodes[..i + 1];
    assert upto[..|upto| - 1] == nodes[..i];
    assert upto[|upto| - 1] == nodes[i];
    InitStoragesLastFails(upto, bucket, c, faults);
  }

  /** Once a prefix of the nodes failed, initStorages over all of them
      returns that prefix's error. */
  lemma {:induction false} InitStoragesErrorPersists(nodes: seq<Node>, bucket: string, c: Minio.Cluster, faults: nat -> NodeFaults, m: nat)
    requires m <= |nodes| && InitStorages(nodes[..m], bucket, c, faults).1.Err?
    ensures InitStorages(nodes, bucket, c, faults).1 == InitStorages(nodes[..m], bucket, c, faults).1
    decreases |nodes|
  {
    if m < |nodes| {
      var init := nodes[..|nodes| - 1];
      assert init[..m] == nodes[..m];
      InitStoragesErrorPersists(init, bucket, c, faults, m);
      InitStoragesStopsAtFailure(nodes, bucket, c, faults);
    } else {
      assert nodes[..m] == nodes;
    }
  }

  /** Once the nodes before the last failed, initStorages returns their error. */
  lemma InitStoragesStopsAtFailure(nodes: seq<Node>, bucket: string, c: Minio.Cluster, faults: nat -> NodeFaults)
    requires |nodes| > 0 && InitStorages(nodes[..|nodes| - 1], bucket, c, faults).1.Err?
    ensures InitStorages(nodes, bucket, c, faults).1 == InitStorages(nodes[..|nodes| - 1], bucket, c, faults).1
  {
  }

  /** When only the last node fails, initStorages returns its error. */
  lemma InitStoragesLastFails(nodes: seq<Node>, bucket: string, c: Minio.Cluster, faults: nat -> NodeFaults)
    requires |nodes| > 0
    requires var p := InitStorages(nodes[..|nodes| - 1], bucket, c, faults);
             p.1.Ok? && InitStorageNode(nodes[|nodes| - 1], bucket, p.0, faults(|nodes| - 1)).1.Err?
    ensures var p := InitStorages(nodes[..|nodes| - 1], bucket, c, faults);
            InitStorages(nodes, bucket, c, faults).1 == Err(InitStorageNode(nodes[|nodes| - 1], bucket, p.0, faults(|nodes| - 1)).1.error)
  {
  }

  /** initStorageNode only probes for or creates the node's bucket: every
      existing bucket keeps its contents. */
  lemma InitStorageNodeKeepsBuckets(n: Node, bucket: string, c: Minio.Cluster, f: NodeFaults)
    ensures Minio.BucketsUntouched(c, InitStorageNode(n, bucket, c, f).0)
  {
  }

  /** initStorages removes no bucket from any server, and every bucket keeps
      its contents. */
  lemma {:induction false} InitStoragesKeepsBuckets(nodes: seq<Node>, bucket: string, c: Minio.Cluster, faults: nat -> NodeFaults)
    ensures Minio.BucketsKept(c, InitStorages(nodes, bucket, c, faults).0)
    ensures Minio.BucketsUntouched(c, InitStorages(nodes, bucket, c, faults).0)
    decreases |nodes|
  {
    if |nodes| > 0 {
      var k := |nodes| - 1;
      var init := nodes[..k];
      InitStoragesKeepsBuckets(init, bucket, c, faults);
      var (c1, prior) := InitStorages(init, bucket, c, faults);
      if prior.Ok? {
        InitStorageNodeKeepsBuckets(nodes[k], bucket, c1, faults(k));
      }
    }
  }

  /** initStorages brings up no server and takes none away. */
  lemma {:induction false} InitStoragesKeepsEndpoints(nodes: seq<Node>, bucket: string, c: Minio.Cluster, faults: nat -> NodeFaults)
    ensures InitStorages(nodes, bucket, c, faults).0.Keys == c.Keys
    decreases |nodes|
  {
    if |nodes| > 0 {
      InitStoragesKeepsEndpoints(nodes[..|nodes| - 1], bucket, c, faults);
    }
  }

  /** One node that cannot be initialised makes initStorages fail. */
  lemma {:induction false} InitStoragesFailsOnDoomed(nodes: seq<Node>, bucket: string, c: Minio.Cluster, faults: nat -> NodeFaults, j: nat)
    requires j < |nodes| && Doomed(nodes[j], c, faults(j))
    ensures InitStorages(nodes, bucket, c, faults).1.Err?
    decreases |nodes|
  {
    var init := nodes[..|nodes| - 1];
    var k := |nodes| - 1;
    var (c1, prior) := InitStorages(init, bucket, c, faults);
    if j < k {
      assert init[j] == nodes[j];
      InitStoragesFailsOnDoomed(init, bucket, c, faults, j);
    } else if prior.Ok? {
      InitStoragesKeepsEndpoints(init, bucket, c, faults);
      assert Doomed(nodes[k], c1, faults(k));
    }
  }

  /** Fault-free nodes whose endpoints all answer are all initialised. */
  lemma {:induction false} InitStoragesSucceeds(nodes: seq<Node>, bucket: string, c: Minio.Cluster, faults: nat -> NodeFaults)
    requires forall i :: 0 <= i < |nodes| ==> faults(i) == NoNodeFaults && nodes[i].endpoint in c
    ensures InitStorages(nodes, bucket, c, faults).1.Ok?
    decreases |nodes|
  {
    if |nodes| > 0 {
      var init := nodes[..|nodes| - 1];
      assert forall i :: 0 <= i < |init| ==> init[i] == nodes[i];
      InitStoragesSucceeds(init, bucket, c, faults);
      InitStoragesKeepsEndpoints(init, bucket, c, faults);
    }
  }

  /** initStorages as a whole: one node that cannot be initialised makes it
      fail, and fault-free nodes whose endpoints all answer make it succeed. */
  lemma InitStoragesAllOrNothing(nodes: seq<Node>, bucket: string, c: Minio.Cluster, faults: nat -> NodeFaults)
    ensures (exists i :: 0 <= i < |nodes| && Doomed(nodes[i], c, faults(i))) ==> InitStorages(nodes, bucket, c, faults).1.Err?
    ensures (forall i :: 0 <= i < |nodes| ==> faults(i) == NoNodeFaults && nodes[i].endpoint in c) ==> InitStorages(nodes, bucket, c, faults).1.Ok?
  {
    if exists i :: 0 <= i < |nodes| && Doomed(nodes[i], c, faults(i)) {
      var j :| 0 <= j < |nodes| && Doomed(nodes[j], c, faults(j));
      InitStoragesFailsOnDoomed(nodes, bucket, c, faults, j);
    }
    if forall i :: 0 <= i < |nodes| ==> faults(i) == NoNodeFaults && nodes[i].endpoint in c {
      InitStoragesSucceeds(nodes, bucket, c, faults);
    }
  }

  /** One step of a successful initStorages: the nodes before the last
      succeeded, and the last node's adapter is added under its token. */
  lemma InitStoragesStep(nodes: seq<Node>, bucket: string, c: Minio.Cluster, faults: nat -> NodeFaults)
    requires |nodes| > 0 && InitStorages(nodes, bucket, c, faults).1.Ok?
    ensures InitStorages(nodes[..|nodes| - 1], bucket, c, faults).1.Ok?
    ensures var prior := InitStorages(nodes[..|nodes| - 1], bucket, c, faults);
            InitStorageNode(nodes[|nodes| - 1], bucket, prior.0, faults(|nodes| - 1)).1 == Ok(AdapterFor(nodes[|nodes| - 1], bucket))
    ensures InitStorages(nodes, bucket, c, faults).1.value
            == InitStorages(nodes[..|nodes| - 1], bucket, c, faults).1.value[Token(nodes[|nodes| - 1]) := AdapterFor(nodes[|nodes| - 1], bucket)]
  {
    InitStoragesPrefixOk(nodes, bucket, c, faults);
  }

  /** Nodes sharing a token collapse to the last of them in the registry. */
  lemma {:induction false} RegistryLastWins(nodes: seq<Node>, bucket: string, c: Minio.Cluster, faults: nat -> NodeFaults, j: nat)
    requires InitStorages(nodes, bucket, c, faults).1.Ok?
    requires j < |nodes|
    requires forall i :: j < i < |nodes| ==> Token(nodes[i]) != Token(nodes[j])
    ensures InitStorages(nodes, bucket, c, faults).1.value[Token(nodes[j])] == AdapterFor(nodes[j], bucket)
    decreases |nodes|
  {
    var k := |nodes| - 1;
    var init := nodes[..k];
    if j == k {
      InitStoragesStep(nodes, bucket, c, faults);
    } else {
      InitStoragesPrefixOk(nodes, bucket, c, faults);
      assert init[j] == nodes[j];
      forall i | j < i < |init|
        ensures Token(init[i]) != Token(init[j])
      {
        assert init[i] == nodes[i];
      }
      RegistryLastWins(init, bucket, c, faults, j);
      RegistryKeepsEarlier(nodes, bucket, c, faults, j);
    }
  }

  /** A successful initStorages succeeded on the nodes before the last. */
  lemma InitStoragesPrefixOk(nodes: seq<Node>, bucket: string, c: Minio.Cluster, faults: nat -> NodeFaults)
    requires |nodes| > 0 && InitStorages(nodes, bucket, c, faults).1.Ok?
    ensures InitStorages(nodes[..|nodes| - 1], bucket, c, faults).1.Ok?
  {
  }

  /** The last node's entry leaves the entry of an earlier node with another
      token as the nodes before it left it. */
  lemma RegistryKeepsEarlier(nodes: seq<Node>, bucket: string, c: Minio.Cluster, faults: nat -> NodeFaults, j: nat)
    requires InitStorages(nodes, bucket, c, faults).1.Ok?
    requires j < |nodes| - 1 && Token(nodes[|nodes| - 1]) != Token(nodes[j])
    ensures var prior := InitStorages(nodes[..|nodes| - 1], bucket, c, faults).1;
            var reg := InitStorages(nodes, bucket, c, faults).1.value;
            && prior.Ok?
            && (Token(nodes[j]) in prior.value ==> Token(nodes[j]) in reg && reg[Token(nodes[j])] == prior.value[Token(nodes[j])])
  {
    InitStoragesStep(nodes, bucket, c, faults);
  }

  /** initHashCircle: one member per distinct token, one partition per node. */
  function InitHashCircle(nodes: seq<Node>): (ring: Ring)
    ensures ring.members == Tokens(nodes)
    ensures |nodes| > 0 ==> ring.members != {}
  {
    assert |nodes| > 0 ==> Token(nodes[0]) in Tokens(nodes);
    Ring(Tokens(nodes), |nodes|)
  }

  /** The registry has an entry for exactly the ring's members, and each is a
      ready adapter for the router's bucket. */
  ghost predicate Wellformed(ds: DistributedStorage, c: Minio.Cluster) {
    && ds.registry.Keys == ds.ring.members
    && forall t | t in ds.registry :: Minio.BucketReady(c, ds.registry[t]) && ds.registry[t].bucketName == ds.bucketName
  }

  /** The error Init returns for a discovery failure. A missing address
      (log.Fatalf) ends the process before any wrapping. */
  function WrapDiscoveryError(e: Error): Error
  {
    if e.AddressUnresolved? then e else RetrieveNodes(e)
  }

  /** DistributedStorage.Init: all or nothing. A router comes out only when
      discovery and every node's initialisation succeeded, and then its ring
      and its registry cover exactly the discovered nodes' tokens. */
  function Init(bucket: string, listing: Discovery.Listing, c: Minio.Cluster, faults: nat -> NodeFaults): (r: (Minio.Cluster, Result<DistributedStorage>))
    ensures Discovery.Discover(listing).Err? ==> r == (c, Err(WrapDiscoveryError(Discovery.Discover(listing).error)))
    ensures r.1.Ok? ==> Discovery.Discover(listing).Ok?
    ensures r.1.Ok? ==> r.1.value.ring.members == Tokens(Discovery.Discover(listing).value)
    ensures r.1.Ok? ==> r.1.value.bucketName == bucket && Wellformed(r.1.value, r.0)
    ensures Discovery.Discover(listing).Ok? ==>
              var nodes := Discovery.Discover(listing).value;
              && ((exists i :: 0 <= i < |nodes| && Doomed(nodes[i], c, faults(i))) ==> r.1.Err?)
              && ((forall i :: 0 <= i < |nodes| ==> faults(i) == NoNodeFaults && nodes[i].endpoint in c) ==> r.1.Ok?)
    ensures Discovery.Discover(listing).Ok? ==>
              (r.1.Ok? <==> InitStorages(Discovery.Discover(listing).value, bucket, c, faults).1.Ok?)
    ensures Discovery.Discover(listing).Ok? && r.1.Err? ==>
              var nodes := Discovery.Discover(listing).value;
              exists i: nat :: FailsAt(nodes, bucket, c, faults, i, r.1.error) && Blames(r.1.error, nodes[i])
    ensures Discovery.Discover(listing).Ok? && r.1.Ok? ==>
              var made := InitStorages(Discovery.Discover(listing).value, bucket, c, faults);
              r.1.value.registry == made.1.value && r.0 == made.0
    ensures Minio.BucketsKept(c, r.0)
    ensures Minio.BucketsUntouched(c, r.0)
  {
    match Discovery.Discover(listing)
    case Err(e) => (c, Err(WrapDiscoveryError(e)))
    case Ok(nodes) =>
      InitStoragesAllOrNothing(nodes, bucket, c, faults);
      InitStoragesKeepsBuckets(nodes, bucket, c, faults);
      var (c', reg) := InitStorages(nodes, bucket, c, faults);
      if reg.Err? then
        InitStoragesBlames(nodes, bucket, c, faults);
        (c', Err(reg.error))
      else (c', Ok(DistributedStorage(bucket, InitHashCircle(nodes), reg.value)))
  }

  /** The member token an object ID is routed to. */
  function RouteKey(ds: DistributedStorage, locate: Locator, id: string): string
  {
    locate(ds.ring, id)
  }

  /** With a sound lookup, a well-formed router never misses in its registry. */
  lemma NeverMisses(ds: DistributedStorage, c: Minio.Cluster, locate: Locator, id: string)
    requires Sound(locate) && Wellformed(ds, c) && ds.ring.members != {}
    ensures RouteKey(ds, locate, id) in ds.registry
  {
  }

  /** DistributedStorage.Put. An absent object or an empty ID is refused
      before any routing; a registry miss is an error; otherwise the object
      goes to the routed adapter alone, and its error comes back wrapped with
      the member token. */
  function Put(ds: DistributedStorage, locate: Locator, obj: Option<Object>, c: Minio.Cluster, fault: Option<Cause>): (r: (Minio.Cluster, Outcome))
    requires obj.Some? && obj.value.id != "" ==> ds.ring.members != {}
    ensures obj.None? || obj.value.id == "" ==> r == (c, Fail(ObjectEmpty))
    ensures obj.Some? && obj.value.id != "" ==>
              var key := RouteKey(ds, locate, obj.value.id);
              && (key !in ds.registry ==> r == (c, Fail(NodeNotAvailable(PutOp, key))))
              && (key in ds.registry ==>
                    var (c', out) := Minio.Put(ds.registry[key], c, obj.value, fault);
                    && r.0 == c'
                    && (out.Pass? <==> r.1.Pass?)
                    && (out.Fail? ==> r.1 == Fail(ForwardFailed(PutOp, key, out.error))))
    ensures r.1.Fail? ==> r.0 == c
    ensures Wellformed(ds, c) ==> Wellformed(ds, r.0)
  {
    if obj.None? || obj.value.id == "" then (c, Fail(ObjectEmpty))
    else
      var key := RouteKey(ds, locate, obj.value.id);
      if key !in ds.registry then (c, Fail(NodeNotAvailable(PutOp, key)))
      else
        var (c', out) := Minio.Put(ds.registry[key], c, obj.value, fault);
        if out.Fail? then (c', Fail(ForwardFailed(PutOp, key, out.error)))
        else (c', Pass)
  }

  /** DistributedStorage.Get. A registry miss is an error; otherwise the
      routed adapter's answer comes back unchanged, an empty result for a
      missing object included, and its error wrapped with the member token. */
  function Get(ds: DistributedStorage, locate: Locator, id: string, c: Minio.Cluster, f: Minio.GetFaults): (r: Result<Option<Object>>)
    requires ds.ring.members != {}
    ensures var key := RouteKey(ds, locate, id);
            && (key !in ds.registry ==> r == Err(NodeNotAvailable(GetOp, key)))
            && (key in ds.registry ==>
                  var answer := Minio.Get(ds.registry[key], c, id, f);
                  && (answer.Ok? ==> r == answer)
                  && (answer.Err? ==> r == Err(ForwardFailed(GetOp, key, answer.error))))
  {
    var key := RouteKey(ds, locate, id);
    if key !in ds.registry then Err(NodeNotAvailable(GetOp, key))
    else
      match Minio.Get(ds.registry[key], c, id, f)
      case Ok(o) => Ok(o)
      case Err(e) => Err(ForwardFailed(GetOp, key, e))
  }

  /** Put(o) followed by Get(o.ID) reach the same adapter: once Put succeeded,
      Get without failures returns the object. */
  lemma RoundTrip(ds: DistributedStorage, locate: Locator, c: Minio.Cluster, o: Object)
    requires Wellformed(ds, c) && ds.ring.members != {} && o.id != ""
    requires Put(ds, locate, Some(o), c, None).1 == Pass
    ensures Get(ds, locate, o.id, Put(ds, locate, Some(o), c, None).0, Minio.NoGetFaults) == Ok(Some(o))
  {
    var key := RouteKey(ds, locate, o.id);
    var c' := Put(ds, locate, Some(o), c, None).0;
    assert c' == Minio.Put(ds.registry[key], c, o, None).0;
  }

  /** A successful Put leaves every other ID reading as before. */
  lemma PutLeavesOthers(ds: DistributedStorage, locate: Locator, c: Minio.Cluster, o: Object, id: string)
    requires Wellformed(ds, c) && ds.ring.members != {} && o.id != "" && id != o.id
    requires Put(ds, locate, Some(o), c, None).1 == Pass
    ensures Get(ds, locate, id, Put(ds, locate, Some(o), c, None).0, Minio.NoGetFaults) == Get(ds, locate, id, c, Minio.NoGetFaults)
  {
    var c' := Put(ds, locate, Some(o), c, None).0;
    var s := ds.registry[RouteKey(ds, locate, o.id)];
    var key := RouteKey(ds, locate, id);
    if key in ds.registry {
      var s2 := ds.registry[key];
      assert Minio.BucketReady(c', s2);
      if s2.endpoint == s.endpoint {
        assert Minio.Bucket(c', s2) == Minio.Bucket(c, s2)[o.id := Minio.Stored(o.contentType, o.content)];
      } else {
        assert c'[s2.endpoint] == c[s2.endpoint];
      }
    }
  }
}

=== FILE: serving.dfy ===
/** The gateway handlers wired to a store: the map-backed double the handler
    tests use, and the sharding router the server runs with
    (gateway.NewServer(storage) in cmd/main.go). The store is called exactly
    when the handler's decision says so. */
module Serving {
  import opened StorageTypes
  import Gateway
  import MockStore
  import Minio
  import Router

  // ---- over the map-backed double ----

  /** getObject over the map double: the double is consulted exactly for a
      valid ID, and its answer becomes the response. */
  function ServeGetOnMock(ms: MockStore.MockStorage, id: string): (resp: Gateway.Response)
    ensures resp == Gateway.GetObject(id, MockStore.Get(ms, id)).response
    ensures resp.status == Gateway.StatusOK <==> Gateway.ValidateObjectId(id) && ms.err.None? && id in ms.objects
  {
    match Gateway.GetDecision(id)
    case Some(resp) => resp
    case None => Gateway.GetReply(id, MockStore.Get(ms, id))
  }

  /** putObject over the map double: the double changes only when the
      handler hands it an object, and the response reflects its outcome. */
  function ServePutOnMock(ms: MockStore.MockStorage, id: string, contentType: string, body: Gateway.BodyRead): (r: (MockStore.MockStorage, Gateway.Response))
    ensures !(Gateway.ValidateObjectId(id) && body.BodyBytes?) ==> r.0 == ms && r.1.status == Gateway.StatusBadRequest
    ensures Gateway.ValidateObjectId(id) && body.BodyBytes? ==>
              var (ms', out) := MockStore.Put(ms, Object(id, contentType, body.bytes));
              && r.0 == ms'
              && r.1 == Gateway.PutObject(id, contentType, body, out).response
  {
    match Gateway.PutDecide(id, contentType, body)
    case Reject(resp) => (ms, resp)
    case Store(o) =>
      var (ms', out) := MockStore.Put(ms, o);
      (ms', Gateway.PutReply(id, out))
  }

  /** PUT then GET of a valid ID answers 200 with the content type and bytes
      that were sent. */
  lemma MockPutThenGet(ms: MockStore.MockStorage, id: string, contentType: string, bytes: seq<byte>)
    requires ms.err.None? && Gateway.ValidateObjectId(id)
    ensures ServePutOnMock(ms, id, contentType, Gateway.BodyBytes(bytes)).1.status == Gateway.StatusOK
    ensures ServeGetOnMock(ServePutOnMock(ms, id, contentType, Gateway.BodyBytes(bytes)).0, id)
            == Gateway.Response(Gateway.StatusOK, Gateway.Blob(contentType, bytes))
  {
    MockStore.PutThenGet(ms, Object(id, contentType, bytes), id);
  }

  /** An invalid ID is answered 400 by both handlers and leaves the store as it was. */
  lemma MockInvalidIdUntouched(ms: MockStore.MockStorage, id: string, contentType: string, body: Gateway.BodyRead)
    requires !Gateway.ValidateObjectId(id)
    ensures ServePutOnMock(ms, id, contentType, body) == (ms, Gateway.Response(Gateway.StatusBadRequest, Gateway.Json(Gateway.InvalidObjectIdMessage)))
    ensures ServeGetOnMock(ms, id) == Gateway.Response(Gateway.StatusBadRequest, Gateway.Json(Gateway.InvalidObjectIdMessage))
  {
  }

  // ---- over the sharding router ----

  /** getObject over the router. The ring only needs members when the ID is
      valid: an invalid ID is answered before the router is reached. */
  function ServeGetOnRouter(ds: Router.DistributedStorage, locate: Router.Locator, c: Minio.Cluster, id: string, f: Minio.GetFaults): (resp: Gateway.Response)
    requires Gateway.ValidateObjectId(id) ==> ds.ring.members != {}
    ensures !Gateway.ValidateObjectId(id) ==> resp == Gateway.Response(Gateway.StatusBadRequest, Gateway.Json(Gateway.InvalidObjectIdMessage))
    ensures Gateway.ValidateObjectId(id) ==> resp == Gateway.GetObject(id, Router.Get(ds, locate, id, c, f)).response
  {
    match Gateway.GetDecision(id)
    case Some(resp) => resp
    case None => Gateway.GetReply(id, Router.Get(ds, locate, id, c, f))
  }

  /** putObject over the router. The ring only needs members when the
      handler hands the router an object; otherwise the cluster is left as
      it was. */
  function ServePutOnRouter(ds: Router.DistributedStorage, locate: Router.Locator, c: Minio.Cluster, id: string, contentType: string, body: Gateway.BodyRead, fault: Option<Cause>): (r: (Minio.Cluster, Gateway.Response))
    requires Gateway.ValidateObjectId(id) && body.BodyBytes? ==> ds.ring.members != {}
    ensures !(Gateway.ValidateObjectId(id) && body.BodyBytes?) ==> r.0 == c && r.1.status == Gateway.StatusBadRequest
    ensures Gateway.ValidateObjectId(id) && body.BodyBytes? ==>
              var (c', out) := Router.Put(ds, locate, Some(Object(id, contentType, body.bytes)), c, fault);
              && r.0 == c'
              && r.1 == Gateway.PutObject(id, contentType, body, out).response
  {
    match Gateway.PutDecide(id, contentType, body)
    case Reject(resp) => (c, resp)
    case Store(o) =>
      var (c', out) := Router.Put(ds, locate, Some(o), c, fault);
      (c', Gateway.PutReply(id, out))
  }

  /** Through the whole stack: once a PUT was answered 200, a GET of the same
      ID without failures answers 200 with the same content type and bytes. */
  lemma RouterPutThenGet(ds: Router.DistributedStorage, locate: Router.Locator, c: Minio.Cluster, id: string, contentType: string, bytes: seq<byte>)
    requires Router.Wellformed(ds, c) && ds.ring.members != {}
    requires ServePutOnRouter(ds, locate, c, id, contentType, Gateway.BodyBytes(bytes), None).1.status == Gateway.StatusOK
    ensures ServeGetOnRouter(ds, locate, ServePutOnRouter(ds, locate, c, id, contentType, Gateway.BodyBytes(bytes), None).0, id, Minio.NoGetFaults)
            == Gateway.Response(Gateway.StatusOK, Gateway.Blob(contentType, bytes))
  {
    var o := Object(id, contentType, bytes);
    assert Gateway.PutDecide(id, contentType, Gateway.BodyBytes(bytes)) == Gateway.Store(o);
    Router.RoundTrip(ds, locate, c, o);
  }

  /** With a sound ring lookup and no failures, a well-formed router stores
      every valid PUT. */
  lemma RouterStoresValidPut(ds: Router.DistributedStorage, locate: Router.Locator, c: Minio.Cluster, id: string, contentType: string, bytes: seq<byte>)
    requires Router.Sound(locate) && Router.Wellformed(ds, c) && ds.ring.members != {}
    requires Gateway.ValidateObjectId(id)
    ensures ServePutOnRouter(ds, locate, c, id, contentType, Gateway.BodyBytes(bytes), None).1
            == Gateway.Response(Gateway.StatusOK, Gateway.Json(Gateway.StoredPrefix + id))
  {
    Router.NeverMisses(ds, c, locate, id);
  }

  /** A GET of a valid ID routed to a node whose server is down or lacks the
      bucket answers 500, not 404. */
  lemma RouterUnreadyIs500(ds: Router.DistributedStorage, locate: Router.Locator, c: Minio.Cluster, id: string)
    requires Gateway.ValidateObjectId(id) && ds.ring.members != {}
    requires Router.RouteKey(ds, locate, id) in ds.registry
    requires !Minio.BucketReady(c, ds.registry[Router.RouteKey(ds, locate, id)])
    ensures ServeGetOnRouter(ds, locate, c, id, Minio.NoGetFaults)
            == Gateway.Response(Gateway.StatusInternalServerError, Gateway.Json(Gateway.RetrieveErrorPrefix + id))
  {
    Minio.GetUnreadyIsError(ds.registry[Router.RouteKey(ds, locate, id)], c, id);
  }

  /** With a sound ring lookup and no failures, a GET of a valid ID that the
      routed node does not hold answers 404, not an error. */
  lemma RouterMissingIsNotFound(ds: Router.DistributedStorage, locate: Router.Locator, c: Minio.Cluster, id: string)
    requires Router.Sound(locate) && Router.Wellformed(ds, c) && ds.ring.members != {}
    requires Gateway.ValidateObjectId(id)
    requires id !in Minio.Bucket(c, ds.registry[Router.RouteKey(ds, locate, id)])
    ensures ServeGetOnRouter(ds, locate, c, id, Minio.NoGetFaults)
            == Gateway.Response(Gateway.StatusNotFound, Gateway.Json(Gateway.NotFoundPrefix + id))
  {
  }
}

=== FILE: storage_types.dfy ===
/** The records the storage package shares (internal/storage/storage.go):
    objects, backend nodes and their textual forms, and the errors the core
    returns, kept as a structure that records what each message embeds. */
module StorageTypes {
  import Text

  newtype byte = x: int | 0 <= x < 256

  datatype Option<T> = None | Some(value: T)

  /** An object as callers store it; identity is `id`. */
  datatype Object = Object(id: string, contentType: string, content: seq<byte>)

  /** One backend instance found by discovery. */
  datatype Node = Node(id: string, name: string, endpoint: string, accessKey: string, secretKey: string)

  /** An error produced by a foreign client (Docker, MinIO, the request body
      reader); only its message text matters to the core. */
  datatype Cause = Cause(message: string)

  datatype Op = PutOp | GetOp

  /** Errors of the core. Each variant keeps the values its Go message embeds;
      `node` fields hold the node's Debug form. */
  datatype Error =
    | ObjectEmpty                                         // "object is empty"
    | ListContainers(cause: Cause)                        // "unable to list containers: ..."
    | AddressUnresolved(containerId: string, name: string) // log.Fatalf: the process exits
    | InspectContainer(containerId: string, cause: Cause) // "unable to inspect container ..."
    | RetrieveNodes(inner: Error)                         // "retrieve storage nodes: ..."
    | NewClient(cause: Cause)                             // "unable to create minio storage instance: ..."
    | CreateStorage(node: string, inner: Error)           // "create Minio storage for node ...: ..."
    | InitStorage(node: string, inner: Error)             // "initialize storage for node ...: ..."
    | NodeNotAvailable(op: Op, key: string)               // "failed to push/get data: storage node not available (...)"
    | ForwardFailed(op: Op, key: string, inner: Error)    // "failed to put/get data using node (...): ..."
    | CheckBucket(endpoint: string, cause: Cause)         // "error init bucket (...): unable to check bucket: ..."
    | CreateBucket(endpoint: string, cause: Cause)        // "error init bucket (...): unable to create bucket: ..."
    | GetObjectFailed(prefix: string, endpoint: string, id: string, cause: Cause)
    | ReadBody(endpoint: string, id: string, cause: Cause) // "error get object (... | ...): unable to read body: ..."
    | PutObjectFailed(endpoint: string, id: string, cause: Cause)
    | Plain(cause: Cause)                                 // an error returned as is (test doubles)

  /** A value-returning call: the Go pair (value, error) with error nil or not. */
  datatype Result<T> = Ok(value: T) | Err(error: Error)

  /** A call that only returns an error. */
  datatype Outcome = Pass | Fail(error: Error)

  /** Node.String: the member token `ID#Name`, used both as the ring member
      and as the key of the adapter registry. */
  function Token(n: Node): string
  {
    n.id + "#" + n.name
  }

  /** The token holds the ID, then a '#', then the name, each at its own
      position. (A lemma rather than a postcondition, so that proofs about
      registries keyed by tokens do not carry it.) */
  lemma TokenLayout(n: Node)
    ensures |Token(n)| == |n.id| + 1 + |n.name|
    ensures Token(n)[..|n.id|] == n.id && Token(n)[|n.id|] == '#' && Token(n)[|n.id| + 1..] == n.name
  {
    var t := Token(n);
    assert t == (n.id + "#") + n.name;
    assert t[..|n.id|] == (n.id + "#")[..|n.id|];
    assert t[|n.id| + 1..] == n.name;
  }

  /** Tokens identify nodes by ID and name as long as IDs carry no '#'
      (Docker container IDs are hexadecimal). */
  lemma TokenInjective(a: Node, b: Node)
    requires '#' !in a.id && '#' !in b.id
    requires Token(a) == Token(b)
    ensures a.id == b.id && a.name == b.name
  {
    TokenHeadIsId(a);
    TokenHeadIsId(b);
    TokenLayout(a);
    TokenLayout(b);
  }

  /** With no '#' in the ID, the ID is the first '#'-separated part of the token. */
  lemma TokenHeadIsId(n: Node)
    requires '#' !in n.id
    ensures Text.Split(Token(n), '#')[0] == n.id
  {
    var t := Token(n);
    TokenLayout(n);
    forall j | 0 <= j < |n.id|
      ensures t[j] != '#'
    {
      assert t[j] == n.id[j];
    }
    Text.SplitAtFirst(t, '#', |n.id|);
  }

  /** maskSecret: one 'X' per byte of the secret, as Go's len counts them. */
  function MaskSecret(secret: string): (m: string)
    ensures |m| == Text.ByteLength(secret)
    ensures forall i :: 0 <= i < |m| ==> m[i] == 'X'
  {
    Text.Repeat('X', Text.ByteLength(secret))
  }

  /** Node.Debug: every field `#`-separated, the secret masked. */
  function Debug(n: Node): (d: string)
    ensures |Token(n)| <= |d| && d[..|Token(n)|] == Token(n)
    ensures |MaskSecret(n.secretKey)| <= |d| && d[|d| - |MaskSecret(n.secretKey)|..] == MaskSecret(n.secretKey)
  {
    n.id + "#" + n.name + "#" + n.endpoint + "#" + n.accessKey + "#" + MaskSecret(n.secretKey)
  }

  /** The Debug form reveals nothing of the secret but its length in bytes:
      two nodes that differ only in secrets of equal byte length print the
      same. */
  lemma DebugHidesSecret(n: Node, other: string)
    requires Text.ByteLength(other) == Text.ByteLength(n.secretKey)
    ensures Debug(n.(secretKey := other)) == Debug(n)
  {
    var a := MaskSecret(other);
    var b := MaskSecret(n.secretKey);
    assert a == b;
  }

  /** The mask differs from any secret that is not itself all 'X'. */
  lemma MaskNeverShowsSecret(secret: string, i: nat)
    requires i < |secret| && secret[i] != 'X'
    ensures MaskSecret(secret) != secret
  {
    if |MaskSecret(secret)| == |secret| {
      assert MaskSecret(secret)[i] == 'X';
    }
  }

  /** Go counts bytes: a one-character secret outside ASCII masks to more
      than one 'X' ("é" is two bytes), and an ASCII secret to one per
      character. */
  lemma MaskCountsBytes()
    ensures MaskSecret("é") == "XX"
    ensures MaskSecret("s3cr3t") == "XXXXXX"
  {
    assert Text.ByteLength("é") == 2;
    assert Text.ByteLength("s3cr3t") == 6;
  }
}

=== FILE: text.dfy ===
/** String operations with the meaning of the Go standard-library calls the
    storage core relies on: len, strings.Contains, strings.Repeat and
    strings.Split on a one-character separator. Strings are sequences of
    Unicode characters; Go's `len` counts the bytes of their UTF-8 encoding. */
module Text {

  /** One character of the regular-expression class [a-zA-Z0-9]. */
  predicate IsAlnum(c: char) {
    ('a' <= c <= 'z') || ('A' <= c <= 'Z') || ('0' <= c <= '9')
  }

  /** The number of bytes UTF-8 uses for `c`. */
  function Utf8Width(c: char): (w: nat)
    ensures 1 <= w <= 4
    ensures w == 1 <==> (c as int) < 0x80
  {
    if (c as int) < 0x80 then 1
    else if (c as int) < 0x800 then 2
    else if (c as int) < 0x10000 then 3
    else 4
  }

  /** Go's len(s): the length of `s` in UTF-8 bytes. It is never below the
      number of characters, and equals it exactly for ASCII strings. */
  function ByteLength(s: string): (n: nat)
    ensures n >= |s|
    ensures n == |s| <==> forall i :: 0 <= i < |s| ==> (s[i] as int) < 0x80
    decreases |s|
  {
    if |s| == 0 then 0
    else
      assert forall i :: 0 < i < |s| ==> s[i] == s[1..][i - 1];
      Utf8Width(s[0]) + ByteLength(s[1..])
  }

  /** `sub` occurs in `s` starting at index `i`. */
  ghost predicate OccursAt(s: string, sub: string, i: int) {
    0 <= i && i + |sub| <= |s| && s[i..i + |sub|] == sub
  }

  /** An occurrence in a non-empty string is either at its head or in its tail. */
  lemma OccursStep(s: string, sub: string)
    requires |s| > 0
    ensures (exists i :: OccursAt(s, sub, i)) <==> OccursAt(s, sub, 0) || (exists i :: OccursAt(s[1..], sub, i))
  {
    if exists i :: OccursAt(s, sub, i) {
      var i :| OccursAt(s, sub, i);
      if i > 0 {
        assert s[1..][i - 1..i - 1 + |sub|] == s[i..i + |sub|];
        assert OccursAt(s[1..], sub, i - 1);
      }
    }
    if exists i :: OccursAt(s[1..], sub, i) {
      var i :| OccursAt(s[1..], sub, i);
      assert s[1..][i..i + |sub|] == s[i + 1..i + 1 + |sub|];
      assert OccursAt(s, sub, i + 1);
    }
  }

  /** strings.Contains(s, sub): true exactly when `sub` occurs somewhere in `s`. */
  function Contains(s: string, sub: string): (b: bool)
    ensures b <==> exists i :: OccursAt(s, sub, i)
    decreases |s|
  {
    if |sub| > |s| then false
    else if s[..|sub|] == sub then
      assert OccursAt(s, sub, 0);
      true
    else
      OccursStep(s, sub);
      Contains(s[1..], sub)
  }

  /** strings.Repeat(string([c]), n). */
  function Repeat(c: char, n: nat): (r: string)
    ensures |r| == n
    ensures forall i :: 0 <= i < n ==> r[i] == c
  {
    if n == 0 then "" else Repeat(c, n - 1) + [c]
  }

  /** strings.Split(s, string([sep])): the maximal runs of `s` between
      occurrences of `sep`. There is always at least one part, and there is
      more than one exactly when `sep` occurs in `s`. */
  function Split(s: string, sep: char): (parts: seq<string>)
    ensures |parts| >= 1
    ensures forall k :: 0 <= k < |parts| ==> sep !in parts[k]
    ensures |parts| > 1 <==> sep in s
    decreases |s|
  {
    if |s| == 0 then [""]
    else
      var rest := Split(s[1..], sep);
      assert s == [s[0]] + s[1..];
      if s[0] == sep then [""] + rest
      else [[s[0]] + rest[0]] + rest[1..]
  }

  /** strings.Join(parts, string([sep])). */
  function Join(parts: seq<string>, sep: char): string
  {
    if |parts| == 0 then ""
    else if |parts| == 1 then parts[0]
    else parts[0] + [sep] + Join(parts[1..], sep)
  }

  lemma JoinConsHead(c: char, parts: seq<string>, sep: char)
    requires |parts| >= 1
    ensures Join([[c] + parts[0]] + parts[1..], sep) == [c] + Join(parts, sep)
  {
    var q := [[c] + parts[0]] + parts[1..];
    assert q[1..] == parts[1..];
  }

  /** Joining the parts of a split with the same separator gives back the string. */
  lemma {:induction false} JoinSplit(s: string, sep: char)
    ensures Join(Split(s, sep), sep) == s
    decreases |s|
  {
    if |s| > 0 {
      var rest := Split(s[1..], sep);
      JoinSplit(s[1..], sep);
      if s[0] == sep {
        var q := [""] + rest;
        assert q[1..] == rest;
        assert Join(q, sep) == "" + [sep] + Join(rest, sep);
        assert s == [s[0]] + s[1..];
      } else {
        JoinConsHead(s[0], rest, sep);
        assert s == [s[0]] + s[1..];
      }
    }
  }

  /** The first part is the text before the first separator, and the remaining
      parts are the split of the text after it. */
  lemma {:induction false} SplitAtFirst(s: string, sep: char, i: nat)
    requires i < |s| && s[i] == sep
    requires forall j :: 0 <= j < i ==> s[j] != sep
    ensures Split(s, sep) == [s[..i]] + Split(s[i + 1..], sep)
    decreases i
  {
    if i > 0 {
      SplitAtFirst(s[1..], sep, i - 1);
      assert s[1..][i..] == s[i + 1..];
      assert [s[0]] + s[1..][..i - 1] == s[..i];
    }
  }
}
